=== FILE: README.md ===
# Collaborative debate orchestration, modelled in Dafny

This project models the control layer of a multi-agent "debate" pipeline.
Three solver agents each answer a problem. Every agent then reviews every
other agent's answer. Each agent refines its answer against the reviews
that target it, and a judge picks a winner. The language-model backend and
all file I/O are not modelled. What remains is deterministic record
manipulation, and its rules are stated and proved here:

- the client's bounded retry loop;
- its decode / validate / stamp step, which turns a malformed answer into
  `None`;
- the fixed fallback record of each stage;
- the all-pairs review schedule, and how its results are collected;
- the review filter used by refinement;
- the shape of every record that crosses a stage boundary, and the stage
  call each record comes from;
- when a run must complete. A malformed answer is never fatal. With a
  backend that never fails in transport (`Client.Reliable`), and role
  answers that are objects or do not decode (`Client.ObjectAnswers`),
  every stage and the whole batch complete.

## How the model is put together

| module | file | models |
|---|---|---|
| `Wrappers` | wrappers.dfy | `Option` (Python `None`) and `Result` (a value or a raised exception) |
| `Json` | json.dfy | the values `json.loads` yields; dicts are maps |
| `Schemas` | schemas.dfy | the four schema documents and a validator for the JSON Schema keywords they use: "type", "required", "properties", "items" |
| `Records` | records.dfy | typed records for solutions, reviews, judgments and role reports, with encoders and decoders |
| `Client` | client.dfy | `call_llm` and `call_llm_json` |
| `Agents` | agents.dfy | the ids `solver_1` … `solver_3` and `judge` |
| `Solver`, `Reviewer`, `Judge`, `RoleAssignment` | solver.dfy, reviewer.dfy, judge.dfy, role_assignment.dfy | the stage modules |
| `Pipeline` | pipeline.dfy | `assign_roles`, `run_pipeline` and `main` of the orchestration script |

The backend is an oracle: `Env.reply(k, req)` is the answer the k-th
backend invocation of a run gives to request `req`. The answer is either
`TransportFailure` or `Text(content)`. A request names the prompt file and
the payload: plain text, or the value that `json.dumps` serialises. Every
operation takes the index `at` of its first backend invocation. It returns
a `Run(result, next)`, where `next` is the index after its last invocation,
so one run's calls use consecutive invocations. `json.loads` is the opaque
total function `Env.loads`. Schema validation is modelled
(`Schemas.Validates`). JSON numbers are exact reals. An "integer" is a
number with no fractional part, as in draft 2020-12.

`Records` proves that the validator and the typed decoders accept exactly
the same values, in both directions. It also proves that every encoded
record decodes back to itself. Every fallback built from string ids is
such an encoding, so it conforms to its stage's schema.

A few behaviours of the code are easy to miss. The model follows the code
in each case:

- A parsed judgment's `winner` is never checked against the solver ids.
  No `confidence` is range-checked. `Judge.WinnerIsNotChecked` exhibits an
  accepted verdict naming an agent that does not exist, with confidence
  2.0.
- A parsed review keeps whatever `reviewer_id` and `solution_id` the
  backend wrote. Only the scheduled pairs and the neutral fallbacks are
  guaranteed to have distinct ids.
- Results of the parallel review tasks are read in submission order, so
  `peer_reviews` is reviewer-major and solution-minor.
- `main` catches nothing. The first problem that raises ends the batch,
  and no later problem runs.
- The pipeline's own `assign_roles` stores `None` for an unusable answer.
  The stand-alone role stage substitutes a default record. The two also
  differ in the text they send.
- Validation happens before stamping. An answer without its own
  `solver_id` is rejected, even though the stamp would have supplied one.
- No schema is given for role self-assessment. If `json.loads` returns
  something that is not an object, such as a number or a list, the
  `solver_id` assignment raises a TypeError. The client does not catch it,
  so the whole run raises. The model returns `NotAnObject` for this case.
- The stand-alone reviewer and judge modules call `json.dumps` but never
  import `json` (see Findings). The orchestration script does import it.
  `Client.Dumps` evaluates `json.dumps` against the set of names a
  module's imports bind. The review and judge stages take that set as a
  parameter. The stand-alone modules run them under their own imports,
  and the orchestration script runs them under its imports.
- With no role and no schema, a text that decodes to `null` is returned
  as Python's `None`. Callers cannot tell it from a rejected text.

## Model

| member | source | states |
|---|---|---|
| `Schemas.SolutionShape` | src/schemas.py:3-23 | a valid solution has a string `solver_id`, a `steps` array, a string `final_answer` and a number `confidence`; every step has an integer `step` and string `reasoning` and `answer` |
| `Schemas.ReviewShape` | src/schemas.py:25-43 | a valid review has string `reviewer_id` and `solution_id` and an `evaluation` holding all five keys |
| `Schemas.EvaluationShape` | src/schemas.py:30-39 | a valid evaluation has all five keys; `errors` is an array of anything and `scores` is any object |
| `Schemas.JudgmentShape` | src/schemas.py:46-54 | a valid judgment has a string `winner`, a number `confidence` with no range and a string `reasoning` |
| `Records.StepValidIff` | src/schemas.py:9-17 | a step validates exactly when it has an integer `step` and string `reasoning` and `answer` |
| `Records.SolutionDecodesIffValid` | src/schemas.py:3-23 | the solution schema and the typed solution decoder accept exactly the same values |
| `Records.EvaluationDecodesIffValid` | src/schemas.py:30-40 | the evaluation sub-schema and the typed decoder accept exactly the same values |
| `Records.ReviewDecodesIffValid` | src/schemas.py:25-43 | the review schema and the typed review decoder accept exactly the same values |
| `Records.JudgmentDecodesIffValid` | src/schemas.py:46-54 | the judgment schema and the typed decoder accept exactly the same values |
| `Records.SolutionRoundTrip` | src/schemas.py:3-23 | every solution record encodes to a valid solution that decodes back to it |
| `Records.ReviewRoundTrip` | src/schemas.py:25-43 | every review record encodes to a valid review that decodes back to it, whatever its errors and scores |
| `Records.JudgmentRoundTrip` | src/schemas.py:46-54 | every judgment record, whatever its confidence, encodes to a valid judgment that decodes back to it |
| `Records.RoleReportRoundTrip` | src/role_assignment.py:17-21 | a role report encodes to an object that decodes back to it |
| `Records.StepsFromJson` | src/schemas.py:7-18 | a steps array decodes exactly when every item is a well-formed step, element by element |
| `Client.CallLlm` | src/openai_client.py:20-34 | returns the first success within the budget after exactly as many invocations as it took; otherwise it uses the whole budget, or none when the budget is not positive, and raises |
| `Client.ReliableDelivers` | src/openai_client.py:20-34 | when no invocation fails in transport, the retry loop never uses up the budget of `call_llm_json` |
| `Client.CallLlmLoop` | src/openai_client.py:20-34 | the literal `for attempt in range(retries)` loop satisfies the same retry contract |
| `Client.AnswersUnique` | src/openai_client.py:20-34 | the retry contract determines the outcome and the number of invocations, so the loop and the recursive function agree |
| `Client.SucceedsAfterFailures` | src/openai_client.py:20-30 | k failures then a success, with k below the budget, return that success's text after exactly k + 1 invocations |
| `Client.ExhaustedAfterFailures` | src/openai_client.py:20-34 | a budget of failures raises after the whole budget; a budget of 0 raises without invoking the backend |
| `Client.Accept` | src/openai_client.py:42-51 | a text is rejected exactly when it does not decode or, with a schema, fails validation; an accepted value is the decoded one and is valid |
| `Client.Stamp` | src/openai_client.py:46-47 | after the stamp `solver_id` is the role, the key set only gains `solver_id`, and every other key keeps its value |
| `Client.StampKeepsValid` | src/openai_client.py:44-47 | stamping a validated object keeps it valid under any schema that types `solver_id`, if at all, as a string |
| `Client.StampTwice` | src/pipeline.py:173-178 | stamping twice with the same id is the same as stamping once |
| `Client.StampSameId` | src/pipeline.py:176-178 | re-stamping an object with the id it already carries leaves it unchanged |
| `Client.Dumps` | src/reviewer.py:18 | `json.dumps` succeeds exactly when `json` is bound in the module's imports, giving the serialised document; otherwise it raises NameError for `json` |
| `Client.CallLlmJson` | src/openai_client.py:36-51 | makes exactly one `call_llm`; transport exhaustion propagates; returns `None` exactly when the delivered text is rejected or, with no role, decodes to `null`; a non-empty role stamps the accepted object, and a non-object cannot be stamped and raises |
| `Client.NullWithoutRoleIsNone` | src/openai_client.py:43-48 | with no role and no schema, a text decoding to `null` comes back as `None` after one invocation, like a rejected text |
| `Client.ParsedConforms` | src/openai_client.py:44-48 | under a stamp-safe schema an accepted answer is an object that still conforms after stamping and carries the role |
| `Solver.EmptySolution` | src/solver.py:14-20 | the fallback decodes to the solution with the agent's id, no steps, an empty answer and confidence 0.5, and it conforms to the solver schema |
| `Solver.RunSolver` | src/solver.py:8-22 | the result always carries the agent's id and conforms to the solver schema; a rejected answer gives exactly the empty solution; otherwise every key except `solver_id` is as decoded; the schema passed is the solver schema; it raises exactly when every attempt of the budget fails in transport |
| `Solver.NonJsonGivesEmptySolution` | src/solver.py:13-21 | a non-JSON answer yields exactly the stamped empty solution after a single invocation |
| `Solver.MissingIdIsRejected` | src/openai_client.py:44-47 | an answer that lacks its own `solver_id` is rejected before the stamp, so the empty solution is used |
| `Reviewer.Row` | src/reviewer.py:36-38 | one reviewer submits one task per solution whose id differs from its own, and as many tasks as there are such solutions |
| `Reviewer.Pairs` | src/reviewer.py:35-38 | every scheduled task pairs a reviewer and a solution from the inputs with distinct `solver_id`s, so there is never a self-pair |
| `Reviewer.PairsComplete` | src/reviewer.py:35-38 | every reviewer and solution with distinct ids are scheduled as a pair |
| `Reviewer.PairsCount` | src/reviewer.py:35-38 | for N outputs with pairwise-distinct ids, the schedule has exactly N × (N − 1) tasks |
| `Reviewer.ThreeAgentSchedule` | src/pipeline.py:150-154 | for three agents, the six tasks are submitted reviewer-major and solution-minor: (1,2), (1,3), (2,1), (2,3), (3,1), (3,2) |
| `Reviewer.TwoAgentSchedule` | src/reviewer.py:35-38 | for two agents, the schedule is (1,2) then (2,1) |
| `Reviewer.NeutralReview` | src/reviewer.py:19-30 | the fallback review carries the pair's reviewer and solution ids, four empty lists and scores `{correctness: 0.5, clarity: 0.5}`, and it conforms to the review schema |
| `Reviewer.ReviewTask` | src/reviewer.py:16-31 | without `json` in the module's imports the task raises NameError before any invocation; with it, the task raises exactly when every attempt of the budget fails in transport, and otherwise yields a schema-valid review; a rejected answer gives exactly the pair's neutral review; an accepted one is the backend's answer to this solution's request, returned as decoded plus `solver_id` equal to the reviewer's id |
| `Reviewer.RunReviews` | src/reviewer.py:33-40 | the fan-in returns one review per scheduled task in submission order; review k is pair k's neutral review or an accepted answer to pair k's own solution request; it uses at most three invocations per task; without `json` the first task's NameError ends it at once; with `json` and a backend that never fails in transport it completes |
| `Reviewer.ReviewsUnfold` | src/reviewer.py:33-40 | a completed first task followed by a completed fan-out over the other pairs is the completed fan-out over all of them |
| `Reviewer.RunPeerReview` | src/reviewer.py:9-42 | returns one review per scheduled pair, in order, each answering its own pair's solution: N × (N − 1) reviews for N distinct ids; without `json` imported only an empty schedule completes, and no invocation is used; with `json` and a backend that never fails in transport it always completes |
| `Reviewer.GarbledTask` | src/reviewer.py:18-30 | a garbled answer costs one invocation and yields the pair's neutral review |
| `Reviewer.GarbledFanOut` | src/reviewer.py:33-40 | with every answer garbled, the fan-out returns exactly the neutral review of each scheduled pair, in order |
| `Reviewer.RunPeerReviewAsWritten` | src/reviewer.py:1-40 | under the module's own imports, which lack `json`, the stage raises NameError whenever any pair is scheduled, before reaching the backend |
| `Reviewer.AsWrittenRaises` | src/reviewer.py:18 | with two agents and a garbled backend, the stage with `json` bound returns two neutral reviews while the module as written raises |
| `Judge.JudgePayload` | src/judge.py:11-14 | the judge payload holds exactly `refined_solutions` and `peer_reviews`, both unchanged |
| `Judge.DefaultJudgment` | src/judge.py:18-22 | the fallback verdict names the given winner with confidence 0.7 and the fixed reasoning, and it conforms to the judgment schema |
| `Judge.Fallback` | src/judge.py:17-22 | the fallback raises IndexError on no solutions, TypeError on a first solution that is not an object and KeyError on one without `solver_id`; otherwise its winner is that id, and it conforms to the judgment schema exactly when the id is a string |
| `Judge.RunJudge` | src/judge.py:7-23 | without `json` in the module's imports it raises NameError before any invocation; with it, it raises transport exhaustion exactly when every attempt fails, a rejected answer gives the fallback verdict, an accepted answer is returned stamped with `judge`, its winner unchecked, and a verdict conforms to the judgment schema whenever the first solution's id is a string; with a backend that never fails in transport and a usable first solution it completes |
| `Judge.WinnerIsNotChecked` | src/judge.py:16-23 | an accepted verdict naming no submitted agent, with confidence 2.0, is passed through unchanged |
| `Judge.RunJudgeAsWritten` | src/judge.py:1-16 | under the module's own imports, which lack `json`, every call raises NameError before the backend is reached |
| `Judge.JudgeAsWrittenRaises` | src/judge.py:16-23 | with one solution and a garbled answer, the stage with `json` bound returns the default verdict while the module as written raises |
| `RoleAssignment.DefaultRole` | src/role_assignment.py:16-21 | the default report is `{preferred_role: "Solver", confidence: 0.8, reasoning: "Defaulted to Solver."}` and carries no `solver_id` |
| `RoleAssignment.RoleCall` | src/role_assignment.py:13-22 | one iteration: the backend delivered an answer, and the report is the default when it does not decode, otherwise the decoded object stamped with the solver id; it raises exactly when every attempt fails in transport or the decoded answer is not an object |
| `RoleAssignment.RolesExtend` | src/role_assignment.py:22 | storing a report that some invocation produced for its key keeps every entry of the map traceable to a backend answer |
| `RoleAssignment.RolesStep` | src/role_assignment.py:13-22 | adding one solver's report to the later solvers' reports keeps the key set and the link from every report to a backend answer |
| `RoleAssignment.AssignRolesFrom` | src/role_assignment.py:12-22 | the loop yields one report per remaining solver key and no other key; every report is the default after a rejected answer or the backend's decoded object stamped with its key, for some invocation; the first remaining key's report comes from the loop's first invocation; it raises only on transport exhaustion or an unstampable answer, and completes when the backend never fails in transport and every answer is an object or does not decode |
| `RoleAssignment.AllSolverIds` | src/role_assignment.py:12-13 | the loop over 1..3 visits exactly the keys `solver_1`, `solver_2`, `solver_3` |
| `RoleAssignment.AssignRoles` | src/role_assignment.py:6-23 | the result's keys are exactly `solver_1`, `solver_2` and `solver_3`; every report is the default after a rejected answer or the backend's decoded answer stamped with its key; `solver_1`'s report comes from the stage's first invocation; it raises only on transport exhaustion or an unstampable answer, and completes when neither can happen |
| `RoleAssignment.GarbledFirstRole` | src/role_assignment.py:15-21 | a garbled first answer gives `solver_1` the default report |
| `RoleAssignment.NonObjectRoleRaises` | src/openai_client.py:44-49 | with no schema, a decoded bare number cannot be stamped, so the stage raises instead of falling back |
| `Pipeline.RolePrompt` | src/pipeline.py:80 | the role prompt is the fixed prefix, the solver's number, a colon and a newline, followed by the question unchanged |
| `Pipeline.RolePromptsDiffer` | src/pipeline.py:80 | different solvers are sent different role prompts for the same question |
| `Pipeline.StampedExtend` | src/pipeline.py:86 | storing an entry stamped with its own key keeps every entry stamped with the key it is stored under |
| `Pipeline.InlineRolesExtend` | src/pipeline.py:86 | storing solver `i`'s answer keeps every entry from position `i` on traceable to a backend answer for that solver's prompt |
| `Pipeline.InlineStep` | src/pipeline.py:81-86 | adding one solver's entry to the later solvers' entries keeps the key set, the stamps and the link to the backend's answers |
| `Pipeline.InlineRoleCall` | src/pipeline.py:80-86 | one iteration: the backend delivered an answer to that solver's prompt; the entry is `None` when it does not decode, otherwise the decoded object stamped with the solver id; it raises exactly when every attempt fails in transport or the decoded answer is not an object |
| `Pipeline.InlineRolesFrom` | src/pipeline.py:77-87 | the pipeline's roles map has exactly the solver keys; each value is `None` after a rejected answer or the backend's decoded answer to that solver's own prompt stamped with its key, for some invocation; the first remaining solver's entry comes from the loop's first invocation; it completes when the backend never fails in transport and every role answer is an object or does not decode |
| `Pipeline.GarbledRoleIsNone` | src/pipeline.py:81-86 | a garbled first answer leaves `None` under `solver_1` |
| `Pipeline.SolvedCons` | src/pipeline.py:101-118 | prepending what solver `i`'s stage returned to the later solvers' solutions keeps them one per solver, in order, each with its own id and returned by its own stage |
| `Pipeline.SolveFrom` | src/pipeline.py:101-118 | the solver loop yields exactly one schema-valid solution per solver, in the order `solver_1`, `solver_2`, `solver_3`, each carrying its own id and each the result of that solver's own stage at some invocation; it completes when the backend never fails in transport |
| `Pipeline.ReviewsFor` | src/pipeline.py:165 | the reviews handed to a solver are the order-preserving subsequence of `peer_reviews` whose `solution_id` is its id: each such review as often as it occurs, and nothing else |
| `Pipeline.RefineRequest` | src/pipeline.py:165-175 | the refinement payload holds exactly the original solution and the reviews that target it |
| `Pipeline.RefineOne` | src/pipeline.py:164-179 | a refined solution keeps the solver's id; an accepted answer is returned stamped with the solver's id; a rejected answer gives back the original solution itself; a valid original stays valid; it raises exactly when every attempt fails in transport |
| `Pipeline.RefinesCons` | src/pipeline.py:164-179 | prepending the first solver's refinement to the others' keeps one refinement per solver, in order, each with its solver's id, its validity, and returned by refining that solver |
| `Pipeline.RefineAll` | src/pipeline.py:163-179 | one refined solution per solver, in order, each with the same id as its original and each the result of refining that solver against the reviews at some invocation; it completes when the backend never fails in transport |
| `Pipeline.ReviewThree` | src/pipeline.py:148-156 | over the three solutions, the fan-out returns six reviews in submission order, each answering its own task's solution, each with a readable `solution_id`; it completes when the backend never fails in transport |
| `Pipeline.RefineAndJudge` | src/pipeline.py:161-201 | each refinement is the result of refining its solver against the reviews, the three are schema-valid and in solver order, and the verdict is the default for `solver_1` or a stamped judge answer, returned by the judge on exactly those refinements and reviews; it completes when the backend never fails in transport |
| `Pipeline.RunDownstream` | src/pipeline.py:123-201 | the six reviews answer their scheduled tasks, each refinement comes from refining its solver against them, and the verdict comes from the judge on those refinements and reviews; it completes when the backend never fails in transport |
| `Pipeline.RolesAndSolutions` | src/pipeline.py:96-118 | roles are keyed by exactly the solver ids, each entry `None` or that solver's own prompt's answer stamped with its key; there are three schema-valid solutions in solver order, each from its solver's own stage; it raises only on transport exhaustion or an unstampable role answer, and completes when neither can happen |
| `Pipeline.RunPipeline` | src/pipeline.py:91-207 | a missing question raises KeyError before any backend call; only transport exhaustion or an unstampable role answer can raise otherwise, and with a backend that never fails in transport and stampable role answers the run completes; every record of a completed run comes from its own stage run on the records before it |
| `Pipeline.PipelineVerdict` | src/pipeline.py:91-207 | `run_pipeline` returns the schema-valid verdict of a well-formed run of the problem, or raises KeyError, transport exhaustion or TypeError; a missing question raises before any backend call; the run completes when the backend never fails in transport and the role answers are stampable |
| `Pipeline.RunAll` | src/pipeline.py:211-215 | a completed batch has one entry per problem, in input order, with `problem_id` defaulting to "N/A" and the schema-valid verdict of a well-formed run of that problem; only KeyError, transport exhaustion or TypeError escape, and the batch completes when the backend never fails in transport and every problem is answerable |
| `Pipeline.MissingQuestionAborts` | src/pipeline.py:93 | a problem without a question anywhere in the batch makes the batch raise, because nothing in `main` catches the KeyError |

## Left out

- The OpenAI request, the API key, and the model and temperature settings
  are replaced by the `Env.reply` oracle. This includes the
  `temperature or TEMPERATURE` float default.
- `time.sleep(1)` between attempts and all `print` logging are left out.
  They carry no data.
- File I/O is left out: reading `problems.json`, creating the results
  directory, writing per-stage result files and `all_judgments.json`,
  and the prompt paths. The prompt file is named by `Prompt`, not read.
  The source reads it before the retry loop, so that read is never
  retried.
- `ThreadPoolExecutor` and `MAX_THREADS` are left out. Tasks run one after
  another in submission order, which is the order their futures are
  read. In the source, a task that raises does not stop its siblings
  from running. Here the fan-out stops at the first raising task. The
  exception that surfaces is the same; only the siblings' backend
  invocations are not counted.
- Payload text is not modelled. A request carries the value passed to
  `json.dumps`, not its text. Dict key order is not modelled either.
- JSON Schema keywords other than "type", "required", "properties" and
  "items" are left out, because the four documents use no others.
  Floating-point numbers are exact reals, so NaN and infinities are not
  modelled.
- A problem is a record whose `id` and `question` are strings when
  present. The `problem.get("id", "problem_1")` default is left out,
  because it only names result files.
- Reviewer and refinement inputs are taken to carry a string
  `solver_id`. In the source a missing `solver_id` raises KeyError, and a
  present one of another type is compared, used as the role and copied
  into the fallback unchecked. No call site in the orchestration script
  produces either, because every solver-stage output is stamped with its
  string id.
- Reviewer.RunReviews: ties review k to pair k's solution request and to
  some invocation, but does not say which invocation started its task.
  `Reviewer.ReviewTask` and `Reviewer.GarbledFanOut` give the exact
  values. Completion is stated for a backend that never fails in
  transport, not as an exact condition on each invocation.
- Reviewer.RunPeerReview: states completion for a backend that never
  fails in transport, not the exact set of failing invocations that
  makes it raise.
- RoleAssignment.AssignRolesFrom: ties every key to some invocation of its
  request and pins only the first key to the loop's first invocation. In
  the source each later key's call is the one right after the previous
  key's call.
- RoleAssignment.AssignRoles: as `AssignRolesFrom`, only `solver_1` is
  pinned to an exact invocation.
- Pipeline.InlineRolesFrom: as `AssignRolesFrom`, only the first
  remaining solver's entry is pinned to an exact invocation.
- Pipeline.SolveFrom: ties each solution to its solver's stage started at
  some invocation, not the exact one after the previous solver's calls.
- Pipeline.RefineAll: ties each refinement to refining its solver at some
  invocation, not the exact one.
- Pipeline.RunPipeline: the verdict and every record are tied to their
  stages at some invocation, not the exact one. Completion is stated for a
  backend that never fails in transport and role answers that are objects
  or do not decode, not as an exact condition. The same holds for
  `Pipeline.PipelineVerdict`, `Pipeline.RunAll`, `Pipeline.RunDownstream`,
  `Pipeline.RefineAndJudge`, `Pipeline.ReviewThree` and
  `Pipeline.RolesAndSolutions`.
- Pipeline.PipelineVerdict: ties the verdict to some well-formed run of the
  problem, not to the run that started at its own invocation.
- Pipeline.RunAll: ties each entry's verdict to some well-formed run of its
  problem, not to the run that started at its own invocation.

## Findings

| source | as written | input that shows it | evidently intended | confidence | as-written member | corrected member |
|---|---|---|---|---|---|---|
| src/reviewer.py:18 | `review_task` calls `json.dumps`, but the module never imports `json`; the NameError surfaces through `f.result()` | any two solver outputs with distinct ids | import `json`, as src/pipeline.py:1 does | high, not executed | `Reviewer.RunPeerReviewAsWritten`, shown by `Reviewer.AsWrittenRaises` | `Reviewer.RunPeerReview`, with `json` among the imports, as `Pipeline.ReviewThree` runs it |
| src/judge.py:16 | `run_judge` calls `json.dumps` without importing `json`, so every call raises NameError | one refined solution and any reviews | import `json`, as src/pipeline.py:1 does | high, not executed | `Judge.RunJudgeAsWritten`, shown by `Judge.JudgeAsWrittenRaises` | `Judge.RunJudge`, with `json` among the imports, as `Pipeline.RefineAndJudge` runs it |

=== FILE: agents.dfy ===
/** The fixed agent identities: `f"solver_{i}"` for `i in range(1, 4)`,
    and the judge's role name. */
module Agents {

  const SolverIds: seq<string> := ["solver_1", "solver_2", "solver_3"]

  /** The `i` of `solver_{i}`, as text. */
  const SolverNumbers: seq<string> := ["1", "2", "3"]

  const JudgeRole: string := "judge"
}

=== FILE: client.dfy ===
/** The generation client: a bounded retry loop around the backend
    (`call_llm`) and the decode / validate / stamp step on top of it
    (`call_llm_json`).

    The backend is an oracle: `reply(k, req)` is what the k-th backend
    invocation of the whole run answers to request `req`, either a transport
    failure or a completion text. Every operation takes the index `at` of the
    next invocation and reports the index after its last one, so a sequence
    of calls consumes consecutive invocations. `json.loads` is the opaque
    total function `loads`. */
module Client {
  import opened Wrappers
  import opened Json
  import opened Schemas

  /** The prompt file a request is sent with. */
  datatype Prompt = RoleSelfAssessment | SolverPrompt | ReviewerPrompt | JudgePrompt

  /** The user message: a plain text, or `json.dumps` of a value. */
  datatype Payload = Plain(text: string) | Dumped(doc: Json)

  datatype Request = Request(prompt: Prompt, payload: Payload)

  /** One backend invocation: an exception, or the message content. */
  datatype Reply = TransportFailure | Text(content: string)

  datatype Env = Env(reply: (nat, Request) -> Reply, loads: string -> Option<Json>)

  /** The exceptions that escape the core. */
  datatype Error =
      /** RuntimeError: every transport attempt failed */
    | TransportExhausted(retries: int)
      /** TypeError: a value that is not an object subscripted with `solver_id` */
    | NotAnObject
      /** KeyError on a missing key */
    | MissingKey(key: string)
      /** IndexError: the judge fallback on an empty list of refined solutions */
    | NoRefinedSolution
      /** NameError: a module uses a name it never imported */
    | Unbound(name: string)

  /** The result of some backend-consuming operation, and the index of the
      next backend invocation after it. */
  datatype Run<+T> = Run(result: Result<T, Error>, next: nat)

  /** Outcome of the transport loop alone. */
  datatype Transport = Delivered(content: string) | Exhausted

  /** What `call_llm` did: its outcome and how many invocations it used. */
  datatype Call = Call(outcome: Transport, used: nat)

  /** The attempt budget `call_llm_json` always uses. */
  const MaxRetries: int := 3

  /** Invocations lo .. hi-1 all failed for `req`. */
  ghost predicate FailsBetween(env: Env, req: Request, lo: nat, hi: int) {
    forall k: nat | lo <= k < hi :: env.reply(k, req).TransportFailure?
  }

  /** `c` is what a retry loop with budget `retries` starting at invocation
      `at` must do: deliver the first success within the budget, after
      exactly as many invocations as it took, or use up the whole budget
      (none at all when it is not positive) on failures. */
  ghost predicate Answers(env: Env, at: nat, req: Request, retries: int, c: Call) {
    match c.outcome
    case Delivered(s) =>
      && 1 <= c.used <= retries
      && env.reply(at + c.used - 1, req) == Text(s)
      && FailsBetween(env, req, at, at + c.used - 1)
    case Exhausted =>
      && c.used == (if retries < 0 then 0 else retries)
      && FailsBetween(env, req, at, at + retries)
  }

  /** There is only one way to answer. */
  lemma AnswersUnique(env: Env, at: nat, req: Request, retries: int, c: Call, d: Call)
    requires Answers(env, at, req, retries, c) && Answers(env, at, req, retries, d)
    ensures c == d
  {
  }

  /** A backend that never fails in transport: every invocation answers. */
  ghost predicate Reliable(env: Env) {
    forall k: nat, req: Request :: env.reply(k, req).Text?
  }

  /** A reliable backend never exhausts the budget `call_llm_json` uses. */
  lemma ReliableDelivers(env: Env, at: nat, req: Request)
    ensures Reliable(env) ==> !FailsBetween(env, req, at, at + MaxRetries)
  {
    if Reliable(env) {
      assert env.reply(at, req).Text?;
    }
  }

  /** `call_llm`: try the backend up to `retries` times and return the first
      completion text. */
  function CallLlm(env: Env, at: nat, req: Request, retries: int): (c: Call)
    ensures Answers(env, at, req, retries, c)
    decreases retries
  {
    if retries <= 0 then Call(Exhausted, 0)
    else match env.reply(at, req)
      case Text(s) => Call(Delivered(s), 1)
      case TransportFailure =>
        var rest := CallLlm(env, at + 1, req, retries - 1);
        Call(rest.outcome, rest.used + 1)
  }

  /** k failures followed by a success within the budget: that success's
      text is returned after exactly k + 1 invocations. */
  lemma SucceedsAfterFailures(env: Env, at: nat, req: Request, retries: int, k: nat, s: string)
    requires k < retries
    requires FailsBetween(env, req, at, at + k) && env.reply(at + k, req) == Text(s)
    ensures CallLlm(env, at, req, retries) == Call(Delivered(s), k + 1)
  {
  }

  /** A budget of failures raises after using the whole budget; a budget of
      zero raises without invoking the backend at all. */
  lemma ExhaustedAfterFailures(env: Env, at: nat, req: Request, retries: nat)
    requires FailsBetween(env, req, at, at + retries)
    ensures CallLlm(env, at, req, retries) == Call(Exhausted, retries)
    ensures CallLlm(env, at, req, 0) == Call(Exhausted, 0)
  {
  }

  /** The retry loop as `call_llm` writes it: `for attempt in range(retries)`,
      returning from inside the loop on the first success. */
  method CallLlmLoop(env: Env, at: nat, req: Request, retries: int) returns (c: Call)
    ensures Answers(env, at, req, retries, c)
  {
    var attempt: nat := 0;
    while attempt < retries
      invariant attempt <= retries || attempt == 0
      invariant FailsBetween(env, req, at, at + attempt)
    {
      match env.reply(at + attempt, req) {
        case Text(s) =>
          return Call(Delivered(s), attempt + 1);
        case TransportFailure =>
      }
      attempt := attempt + 1;
    }
    return Call(Exhausted, attempt);
  }

  /** `json.dumps(doc)` evaluated in a module whose imports bind `scope`:
      the serialised value when `json` is bound, NameError otherwise. */
  function Dumps(scope: set<string>, doc: Json): (r: Result<Payload, Error>)
    ensures r.Success? <==> "json" in scope
    ensures r.Success? ==> r.value == Dumped(doc)
    ensures r.Failure? ==> r.error == Unbound("json")
  {
    if "json" in scope then Success(Dumped(doc)) else Failure(Unbound("json"))
  }

  /** `json.loads` followed, when a schema is given, by `validate`. */
  function Accept(loads: string -> Option<Json>, text: string, schema: Option<Schema>): (r: Option<Json>)
    ensures r.Some? ==> loads(text) == r
    ensures r.Some? && schema.Some? ==> Validates(r.value, schema.value)
    ensures r.None? <==> loads(text).None? || (schema.Some? && !Validates(loads(text).value, schema.value))
  {
    match loads(text)
    case None => None
    case Some(data) => if schema.Some? && !Validates(data, schema.value) then None else Some(data)
  }

  /** `data["solver_id"] = role` on a dict. */
  function Stamp(data: Json, role: string): (r: Json)
    requires data.Obj?
    ensures HasStringId(r) && IdOf(r) == role
    ensures r.fields.Keys == data.fields.Keys + {SolverIdKey}
    ensures forall k | k in data.fields && k != SolverIdKey :: r.fields[k] == data.fields[k]
  {
    Obj(data.fields[SolverIdKey := Str(role)])
  }

  /** Stamping is idempotent: a second stamp with the same id changes nothing. */
  lemma StampTwice(data: Json, role: string)
    requires data.Obj?
    ensures Stamp(Stamp(data, role), role) == Stamp(data, role)
  {
    assert Stamp(Stamp(data, role), role).fields == Stamp(data, role).fields;
  }

  /** Overwriting `solver_id` with a string keeps a value valid under a
      schema that types `solver_id` as a string, if at all. */
  lemma StampKeepsValid(data: Json, s: Schema, role: string)
    requires StampSafe(s) && Validates(data, s)
    ensures Validates(Stamp(data, role), s)
  {
    var r := Stamp(data, role);
    forall i | 0 <= i < |s.properties|
      ensures s.properties[i].name in r.fields ==> Validates(r.fields[s.properties[i].name], s.properties[i].schema)
    {
      if s.properties[i].name == SolverIdKey {
        assert s.properties[i].schema == StringType;
      }
    }
  }

  /** Stamping an object with the id it already carries changes nothing. */
  lemma StampSameId(data: Json)
    requires HasStringId(data)
    ensures Stamp(data, IdOf(data)) == data
  {
    assert Stamp(data, IdOf(data)).fields == data.fields;
  }

  /** What the backend's delivered text amounts to once decoded and checked:
      None when nothing was delivered or the text was rejected. */
  ghost function Accepted(env: Env, at: nat, req: Request, schema: Option<Schema>): Option<Json> {
    var c := CallLlm(env, at, req, MaxRetries);
    if c.outcome.Delivered? then Accept(env.loads, c.outcome.content, schema) else None
  }

  /** Whatever invocation answers `req`, the text, unchecked by any schema,
      decodes to an object or does not decode at all, so it can be stamped. */
  ghost predicate ObjectAnswers(env: Env, req: Request) {
    forall k: nat :: Accepted(env, k, req, None).Some? ==> Accepted(env, k, req, None).value.Obj?
  }

  /** `call_llm_json`: one `call_llm`, then decode, validate and stamp; a
      malformed or non-conforming text becomes `None` and is never retried.
      An empty `role` (falsy in Python) stamps nothing, and then a text that
      decodes to `null` comes back as Python's `None`, indistinguishable from
      a rejected text. */
  function CallLlmJson(env: Env, at: nat, req: Request, role: string, schema: Option<Schema>)
    : (r: Run<Option<Json>>)
    ensures r.next == at + CallLlm(env, at, req, MaxRetries).used
    ensures r.next <= at + MaxRetries
    ensures r.result == Failure(TransportExhausted(MaxRetries))
            <==> FailsBetween(env, req, at, at + MaxRetries)
    ensures r.result == Success(None)
            <==> && CallLlm(env, at, req, MaxRetries).outcome.Delivered?
                 && (Accepted(env, at, req, schema).None? || (role == "" && Accepted(env, at, req, schema) == Some(Null)))
    ensures r.result.Success? && r.result.value.Some? ==>
              var data := Accepted(env, at, req, schema);
              && data.Some?
              && (role == "" ==> r.result.value == data && data.value != Null)
              && (role != "" ==> data.value.Obj? && r.result.value == Some(Stamp(data.value, role)))
    ensures r.result == Failure(NotAnObject)
            <==> role != "" && Accepted(env, at, req, schema).Some? && !Accepted(env, at, req, schema).value.Obj?
    ensures r.result.Failure? ==> r.result.error.TransportExhausted? || r.result.error.NotAnObject?
  {
    var c := CallLlm(env, at, req, MaxRetries);
    var next := at + c.used;
    match c.outcome
    case Exhausted => Run(Failure(TransportExhausted(MaxRetries)), next)
    case Delivered(text) =>
      match Accept(env.loads, text, schema)
      case None => Run(Success(None), next)
      case Some(data) =>
        if role == "" then Run(Success(if data == Null then None else Some(data)), next)
        else if !data.Obj? then Run(Failure(NotAnObject), next)
        else Run(Success(Some(Stamp(data, role))), next)
  }

  /** With no role and no schema, a text that decodes to `null` comes back
      as `None`, exactly as a rejected text does. */
  lemma NullWithoutRoleIsNone(env: Env, at: nat, req: Request, text: string)
    requires env.reply(at, req) == Text(text) && env.loads(text) == Some(Null)
    ensures CallLlmJson(env, at, req, "", None) == Run(Success(None), at + 1)
  {
    assert CallLlm(env, at, req, MaxRetries) == Call(Delivered(text), 1);
  }

  /** Under an object schema that types `solver_id` as a string, an accepted
      response is an object that conforms to the schema even after stamping. */
  lemma ParsedConforms(env: Env, at: nat, req: Request, role: string, s: Schema)
    requires StampSafe(s)
    requires CallLlmJson(env, at, req, role, Some(s)).result.Success?
    requires CallLlmJson(env, at, req, role, Some(s)).result.value.Some?
    ensures var d := CallLlmJson(env, at, req, role, Some(s)).result.value.value;
            d.Obj? && Validates(d, s) && (role != "" ==> HasStringId(d) && IdOf(d) == role)
  {
    var data := Accepted(env, at, req, Some(s));
    if role != "" {
      StampKeepsValid(data.value, s, role);
    }
  }
}

=== FILE: json.dfy ===
/** The values `json.loads` produces and `json.dumps` consumes.

    A Python dict is a `map`: key order only affects the text `json.dumps`
    writes, which the model never inspects. JSON numbers (Python `int` and
    `float`) are exact reals. */
module Json {

  datatype Json =
    | Null
    | Bool(b: bool)
    | Num(n: real)
    | Str(s: string)
    | Arr(items: seq<Json>)
    | Obj(fields: map<string, Json>)

  /** The key every stage stamps with the acting agent's identity. */
  const SolverIdKey: string := "solver_id"

  /** A number with no fractional part (what JSON Schema calls an integer). */
  predicate IsInteger(x: real) {
    x.Floor as real == x
  }

  /** `j` is an object with a string under `key`. */
  predicate HasString(j: Json, key: string) {
    j.Obj? && key in j.fields && j.fields[key].Str?
  }

  /** `j` is an object carrying a string `solver_id`, as every solution does. */
  predicate HasStringId(j: Json) {
    HasString(j, SolverIdKey)
  }

  /** `j["solver_id"]` */
  function IdOf(j: Json): string
    requires HasStringId(j)
  {
    j.fields[SolverIdKey].s
  }

  /** Every element of `js` carries a string `solver_id`. */
  predicate AllHaveIds(js: seq<Json>) {
    forall i | 0 <= i < |js| :: HasStringId(js[i])
  }
}

=== FILE: judge.dfy ===
/** The judge stage: one call over every refined solution and every review,
    with a default verdict for the first solver when the answer is unusable. */
module Judge {
  import opened Wrappers
  import opened Json
  import opened Schemas
  import opened Records
  import opened Client
  import opened Agents

  const DefaultConfidence: real := 0.7

  const DefaultReasoning: string := "Defaulted to first solver due to invalid judge output."

  /** `{"refined_solutions": ..., "peer_reviews": ...}`: both lists, unchanged. */
  function JudgePayload(refined: seq<Json>, reviews: seq<Json>): (j: Json)
    ensures j.Obj? && j.fields.Keys == {"refined_solutions", "peer_reviews"}
    ensures j.fields["refined_solutions"].Arr? && j.fields["refined_solutions"].items == refined
    ensures j.fields["peer_reviews"].Arr? && j.fields["peer_reviews"].items == reviews
  {
    Obj(map["refined_solutions" := Arr(refined), "peer_reviews" := Arr(reviews)])
  }

  function JudgeRequest(refined: seq<Json>, reviews: seq<Json>): Request {
    Request(JudgePrompt, Dumped(JudgePayload(refined, reviews)))
  }

  /** The verdict used when the judge's answer cannot be used. */
  function DefaultJudgment(winner: string): (j: Json)
    ensures JudgmentFromJson(j) == Some(Judgment(winner, DefaultConfidence, DefaultReasoning))
    ensures Validates(j, JudgeSchema)
  {
    JudgmentRoundTrip(Judgment(winner, DefaultConfidence, DefaultReasoning));
    JudgmentToJson(Judgment(winner, DefaultConfidence, DefaultReasoning))
  }

  lemma JudgeSchemaStampSafe()
    ensures StampSafe(JudgeSchema)
  {
  }

  /** The names the judge module's imports bind: `json` is not among them. */
  const JudgeImports: set<string> := {"call_llm_json", "os", "JUDGE_SCHEMA"}

  /** The fallback verdict, whose winner is `refined_solutions[0]["solver_id"]`:
      IndexError on an empty list, TypeError when the first solution is not an
      object, KeyError when it has no `solver_id`; otherwise that id, whatever
      its type, becomes the winner. */
  function Fallback(refined: seq<Json>): (r: Result<Json, Error>)
    ensures refined == [] ==> r == Failure(NoRefinedSolution)
    ensures refined != [] && !refined[0].Obj? ==> r == Failure(NotAnObject)
    ensures refined != [] && refined[0].Obj? && SolverIdKey !in refined[0].fields ==>
              r == Failure(MissingKey(SolverIdKey))
    ensures refined != [] && HasStringId(refined[0]) ==> r == Success(DefaultJudgment(IdOf(refined[0])))
    ensures r.Success? ==>
              && refined != [] && refined[0].Obj? && SolverIdKey in refined[0].fields
              && r.value.Obj? && "winner" in r.value.fields && r.value.fields["winner"] == refined[0].fields[SolverIdKey]
              && (Validates(r.value, JudgeSchema) <==> HasStringId(refined[0]))
  {
    if refined == [] then Failure(NoRefinedSolution)
    else match refined[0]
      case Obj(fields) =>
        if SolverIdKey !in fields then Failure(MissingKey(SolverIdKey))
        else
          var winner := fields[SolverIdKey];
          var verdict := Obj(map["winner" := winner, "confidence" := Num(DefaultConfidence),
                                 "reasoning" := Str(DefaultReasoning)]);
          if winner.Str? then
            assert verdict == DefaultJudgment(winner.s);
            Success(verdict)
          else
            assert !Validates(verdict, JudgeSchema) by {
              if Validates(verdict, JudgeSchema) {
                JudgmentShape(verdict);
              }
            }
            Success(verdict)
      case _ => Failure(NotAnObject)
  }

  /** `run_judge` in a module whose imports bind `scope`. Building the call's
      arguments evaluates `json.dumps` first, so without `json` the stage
      raises NameError before the backend is reached. With it, the verdict is
      the fallback exactly when the answer was rejected, and otherwise the
      accepted answer stamped with the judge's role, its winner taken on trust;
      a verdict conforms to the judgment schema unless it is a fallback whose
      winner is not a string. */
  function RunJudge(scope: set<string>, env: Env, at: nat, refined: seq<Json>, reviews: seq<Json>): (r: Run<Json>)
    ensures "json" !in scope ==> r == Run(Failure(Unbound("json")), at)
    ensures "json" in scope ==>
              var call := CallLlmJson(env, at, JudgeRequest(refined, reviews), JudgeRole, Some(JudgeSchema));
              && r.next == call.next
              && (r.result == Failure(TransportExhausted(MaxRetries)) <==> call.result.Failure?)
    ensures "json" in scope ==>
              var accepted := Accepted(env, at, JudgeRequest(refined, reviews), Some(JudgeSchema));
              && (accepted.None? && CallLlm(env, at, JudgeRequest(refined, reviews), MaxRetries).outcome.Delivered? ==>
                    r.result == Fallback(refined))
              && (accepted.Some? ==> r.result == Success(Stamp(accepted.value, JudgeRole)))
    ensures r.result.Success? && (refined == [] || HasStringId(refined[0])) ==> Validates(r.result.value, JudgeSchema)
    ensures "json" in scope ==>
              (r.result == Failure(TransportExhausted(MaxRetries)) <==> FailsBetween(env, JudgeRequest(refined, reviews), at, at + MaxRetries))
    ensures "json" in scope && Reliable(env) && Fallback(refined).Success? ==> r.result.Success?
  {
    ReliableDelivers(env, at, JudgeRequest(refined, reviews));
    match Dumps(scope, JudgePayload(refined, reviews))
    case Failure(e) => Run(Failure(e), at)
    case Success(payload) =>
      var req := Request(JudgePrompt, payload);
      var call := CallLlmJson(env, at, req, JudgeRole, Some(JudgeSchema));
      match call.result
      case Failure(e) => Run(Failure(e), call.next)
      case Success(None) => Run(Fallback(refined), call.next)
      case Success(Some(data)) =>
        JudgeSchemaStampSafe();
        ParsedConforms(env, at, req, JudgeRole, JudgeSchema);
        Run(Success(data), call.next)
  }

  /** Nothing ties an accepted verdict to the candidates: a judge that names
      an agent nobody submitted, with a confidence outside [0, 1], is passed
      through as it is. */
  lemma WinnerIsNotChecked(scope: set<string>, env: Env, at: nat, refined: seq<Json>, reviews: seq<Json>, text: string)
    requires "json" in scope
    requires AllHaveIds(refined)
    requires forall i | 0 <= i < |refined| :: IdOf(refined[i]) != "nobody"
    requires env.reply(at, JudgeRequest(refined, reviews)) == Text(text)
    requires env.loads(text) == Some(JudgmentToJson(Judgment("nobody", 2.0, "")))
    ensures var r := RunJudge(scope, env, at, refined, reviews);
            && r.result.Success?
            && JudgmentFromJson(r.result.value) == Some(Judgment("nobody", 2.0, ""))
            && forall i | 0 <= i < |refined| :: r.result.value.fields["winner"] != Str(IdOf(refined[i]))
  {
    JudgmentRoundTrip(Judgment("nobody", 2.0, ""));
    var req := JudgeRequest(refined, reviews);
    assert CallLlm(env, at, req, MaxRetries) == Call(Delivered(text), 1);
  }

  /** `run_judge` as written, in its own module: whatever the inputs and the
      backend, it raises NameError and consumes no invocation. */
  function RunJudgeAsWritten(env: Env, at: nat, refined: seq<Json>, reviews: seq<Json>): (r: Run<Json>)
    ensures r.result == Failure(Unbound("json")) && r.next == at
  {
    RunJudge(JudgeImports, env, at, refined, reviews)
  }

  /** With a single garbled answer the stage with `json` bound returns the
      default verdict, while the module as written raises. */
  lemma JudgeAsWrittenRaises(env: Env, at: nat, first: Json, text: string)
    requires HasStringId(first)
    requires env.reply(at, JudgeRequest([first], [])) == Text(text) && env.loads(text).None?
    ensures RunJudgeAsWritten(env, at, [first], []).result == Failure(Unbound("json"))
    ensures RunJudge(JudgeImports + {"json"}, env, at, [first], []).result == Success(DefaultJudgment(IdOf(first)))
  {
    assert CallLlm(env, at, JudgeRequest([first], []), MaxRetries) == Call(Delivered(text), 1);
  }
}

=== FILE: pipeline.dfy ===
/** The runnable orchestration: per problem, role self-assessment, three
    solvers, the all-pairs peer review, refinement against the reviews that
    target each solver, and the judge; then one verdict per problem.
    Stages run strictly one after another, each over the complete output of
    the one before. */
module Pipeline {
  import opened Wrappers
  import opened Json
  import opened Schemas
  import opened Records
  import opened Client
  import opened Agents
  import RoleAssignment
  import Solver
  import Reviewer
  import Judge

  /** The names the orchestration script's imports bind, `json` among them. */
  const PipelineImports: set<string> := {"json", "os", "ThreadPoolExecutor", "call_llm", "call_llm_json"}

  /** An input problem; `id` and `question` are absent when the record lacks them. */
  datatype Problem = Problem(id: Option<string>, question: Option<string>)

  // ---------------------------------------------------------------- roles

  /** The role prompt text, `f"Role self-assessment for solver {i}:\n{problem_text}"`:
      a fixed prefix, the solver's number, a colon and a newline, then the
      question unchanged. */
  function RolePrompt(i: nat, question: string): (p: string)
    requires i < |SolverNumbers|
    ensures |p| == 35 + |question|
    ensures p[..32] == "Role self-assessment for solver "
    ensures p[32] == SolverNumbers[i][0] && p[33..35] == ":\n"
    ensures p[35..] == question
  {
    "Role self-assessment for solver " + SolverNumbers[i] + ":\n" + question
  }

  /** Each solver is asked a different text, so the three requests are
      distinct, whereas the stand-alone stage sends the same one thrice. */
  lemma RolePromptsDiffer(i: nat, j: nat, question: string)
    requires i < |SolverNumbers| && j < |SolverNumbers| && i != j
    ensures RolePrompt(i, question) != RolePrompt(j, question)
  {
    assert RolePrompt(i, question)[32] != RolePrompt(j, question)[32];
  }

  function InlineRoleRequest(i: nat, question: string): Request
    requires i < |SolverNumbers|
  {
    Request(RoleSelfAssessment, Plain(RolePrompt(i, question)))
  }

  /** `entry` is what the call for solver `i` started at invocation `k`
      stores: the backend delivered an answer, and the entry is None when
      that answer does not decode, or the decoded object stamped with the
      solver's id. */
  ghost predicate InlineAnswerAt(env: Env, k: nat, question: string, i: nat, entry: Option<Json>)
    requires i < |SolverIds|
  {
    var accepted := Accepted(env, k, InlineRoleRequest(i, question), None);
    && CallLlm(env, k, InlineRoleRequest(i, question), MaxRetries).outcome.Delivered?
    && (|| (accepted.None? && entry.None?)
        || (accepted.Some? && accepted.value.Obj? && entry == Some(Stamp(accepted.value, SolverIds[i]))))
  }

  /** Every solver from position `i` on has an entry, and it is the outcome
      of some call for that solver. */
  ghost predicate InlineRolesOf(env: Env, question: string, roles: map<string, Option<Json>>, i: nat)
    requires i <= |SolverIds|
  {
    forall j | i <= j < |SolverIds| ::
      SolverIds[j] in roles && exists k: nat :: InlineAnswerAt(env, k, question, j, roles[SolverIds[j]])
  }

  lemma InlineRolesExtend(env: Env, at: nat, question: string, roles: map<string, Option<Json>>, i: nat, entry: Option<Json>)
    requires i < |SolverIds|
    requires InlineRolesOf(env, question, roles, i + 1) && InlineAnswerAt(env, at, question, i, entry)
    ensures InlineRolesOf(env, question, roles[SolverIds[i] := entry], i)
  {
    var extended := roles[SolverIds[i] := entry];
    forall j | i <= j < |SolverIds|
      ensures SolverIds[j] in extended && exists k: nat :: InlineAnswerAt(env, k, question, j, extended[SolverIds[j]])
    {
      if j == i {
        assert InlineAnswerAt(env, at, question, j, extended[SolverIds[j]]);
      } else {
        assert SolverIds[j] != SolverIds[i];
        assert extended[SolverIds[j]] == roles[SolverIds[j]];
      }
    }
  }

  /** Every present entry carries, as its string `id`, the key it is stored under. */
  predicate EntriesStamped(roles: map<string, Option<Json>>) {
    forall id | id in roles && roles[id].Some? :: HasStringId(roles[id].value) && IdOf(roles[id].value) == id
  }

  lemma StampedExtend(roles: map<string, Option<Json>>, id: string, entry: Option<Json>)
    requires EntriesStamped(roles)
    requires entry.Some? ==> HasStringId(entry.value) && IdOf(entry.value) == id
    ensures EntriesStamped(roles[id := entry])
  {
  }

  /** Adding solver `i`'s entry to the entries of the later solvers keeps
      every property the loop promises. */
  lemma InlineStep(env: Env, at: nat, question: string, i: nat, entry: Option<Json>, roles: map<string, Option<Json>>)
    requires i < |SolverIds|
    requires InlineAnswerAt(env, at, question, i, entry)
    requires entry.Some? ==> HasStringId(entry.value) && IdOf(entry.value) == SolverIds[i]
    requires roles.Keys == RoleAssignment.IdsFrom(i + 1)
    requires InlineRolesOf(env, question, roles, i + 1) && EntriesStamped(roles)
    ensures var extended := roles[SolverIds[i] := entry];
            && extended.Keys == RoleAssignment.IdsFrom(i)
            && InlineRolesOf(env, question, extended, i)
            && EntriesStamped(extended)
            && InlineAnswerAt(env, at, question, i, extended[SolverIds[i]])
  {
    assert RoleAssignment.IdsFrom(i) == RoleAssignment.IdsFrom(i + 1) + {SolverIds[i]};
    InlineRolesExtend(env, at, question, roles, i, entry);
    StampedExtend(roles, SolverIds[i], entry);
  }

  /** One iteration of the pipeline's role loop: the decoded, stamped answer
      for solver `i`, or None. */
  function InlineRoleCall(env: Env, at: nat, question: string, i: nat): (r: Run<Option<Json>>)
    requires i < |SolverIds|
    ensures at <= r.next
    ensures r.result.Failure? ==> r.result.error == TransportExhausted(MaxRetries) || r.result.error == NotAnObject
    ensures r.result.Success? ==> InlineAnswerAt(env, at, question, i, r.result.value)
    ensures r.result.Success? && r.result.value.Some? ==>
              HasStringId(r.result.value.value) && IdOf(r.result.value.value) == SolverIds[i]
    ensures var accepted := Accepted(env, at, InlineRoleRequest(i, question), None);
            r.result.Failure? <==>
              || FailsBetween(env, InlineRoleRequest(i, question), at, at + MaxRetries)
              || (accepted.Some? && !accepted.value.Obj?)
  {
    CallLlmJson(env, at, InlineRoleRequest(i, question), SolverIds[i], None)
  }

  /** Every solver's role prompt is answered with an object or with text
      that does not decode, so no role answer is unstampable. */
  ghost predicate InlineObjectAnswers(env: Env, question: string) {
    forall j | 0 <= j < |SolverIds| :: ObjectAnswers(env, InlineRoleRequest(j, question))
  }

  /** The pipeline's own `assign_roles` from position `i` on. Unlike the
      stand-alone stage it has no fallback: a rejected answer is stored as
      None. */
  function InlineRolesFrom(env: Env, at: nat, question: string, i: nat): (r: Run<map<string, Option<Json>>>)
    requires i <= |SolverIds|
    ensures at <= r.next
    ensures r.result.Failure? ==> r.result.error == TransportExhausted(MaxRetries) || r.result.error == NotAnObject
    ensures r.result.Success? ==>
              && r.result.value.Keys == RoleAssignment.IdsFrom(i)
              && InlineRolesOf(env, question, r.result.value, i)
              && EntriesStamped(r.result.value)
    ensures i < |SolverIds| && r.result.Success? ==>
              InlineAnswerAt(env, at, question, i, r.result.value[SolverIds[i]])
    ensures Reliable(env) && InlineObjectAnswers(env, question) ==> r.result.Success?
    decreases |SolverIds| - i
  {
    if i == |SolverIds| then Run(Success(map[]), at)
    else
      ReliableDelivers(env, at, InlineRoleRequest(i, question));
      var id := SolverIds[i];
      var call := InlineRoleCall(env, at, question, i);
      match call.result
      case Failure(e) => Run(Failure(e), call.next)
      case Success(output) =>
        var rest := InlineRolesFrom(env, call.next, question, i + 1);
        match rest.result
        case Failure(e) => Run(Failure(e), rest.next)
        case Success(roles) =>
          InlineStep(env, at, question, i, output, roles);
          Run(Success(roles[id := output]), rest.next)
  }

  /** A garbled first answer leaves None under solver_1. */
  lemma GarbledRoleIsNone(env: Env, at: nat, question: string, text: string)
    requires env.reply(at, Request(RoleSelfAssessment, Plain(RolePrompt(0, question)))) == Text(text)
    requires env.loads(text).None?
    ensures var r := InlineRolesFrom(env, at, question, 0);
            r.result.Success? ==> r.result.value["solver_1"] == None
  {
    var req := Request(RoleSelfAssessment, Plain(RolePrompt(0, question)));
    assert CallLlm(env, at, req, MaxRetries) == Call(Delivered(text), 1);
  }

  // ---------------------------------------------------------------- solvers

  /** `solution` is what solver `id`'s stage returned when started at some
      invocation. */
  ghost predicate SolutionOf(env: Env, question: string, solution: Json, id: string) {
    exists k: nat :: Solver.RunSolver(env, k, question, id).result == Success(solution)
  }

  /** `solutions` holds one solution per solver from position `i` on, in
      order, each carrying its solver's id, conforming to the solver schema,
      and returned by that solver's own stage. */
  ghost predicate SolvedFrom(env: Env, question: string, solutions: seq<Json>, i: nat)
    requires i <= |SolverIds|
  {
    && |solutions| == |SolverIds| - i
    && forall k | 0 <= k < |solutions| ::
         && HasStringId(solutions[k]) && IdOf(solutions[k]) == SolverIds[i + k]
         && Validates(solutions[k], SolverSchema)
         && SolutionOf(env, question, solutions[k], SolverIds[i + k])
  }

  lemma SolvedCons(env: Env, at: nat, question: string, solution: Json, solutions: seq<Json>, i: nat)
    requires i < |SolverIds|
    requires Solver.RunSolver(env, at, question, SolverIds[i]).result == Success(solution)
    requires SolvedFrom(env, question, solutions, i + 1)
    ensures SolvedFrom(env, question, [solution] + solutions, i)
  {
    var all := [solution] + solutions;
    forall k | 0 <= k < |all|
      ensures && HasStringId(all[k]) && IdOf(all[k]) == SolverIds[i + k]
              && Validates(all[k], SolverSchema)
              && SolutionOf(env, question, all[k], SolverIds[i + k])
    {
      if k > 0 {
        assert all[k] == solutions[k - 1];
      } else {
        assert SolutionOf(env, question, all[0], SolverIds[i]) by {
          assert Solver.RunSolver(env, at, question, SolverIds[i]).result == Success(all[0]);
        }
      }
    }
  }

  /** The solver loop from position `i` on: one solution per remaining
      solver, in order, each the result of that solver's own stage; it
      completes whenever the backend never fails in transport. */
  function SolveFrom(env: Env, at: nat, question: string, i: nat): (r: Run<seq<Json>>)
    requires i <= |SolverIds|
    ensures at <= r.next
    ensures r.result.Failure? ==> r.result.error == TransportExhausted(MaxRetries)
    ensures r.result.Success? ==> SolvedFrom(env, question, r.result.value, i)
    ensures Reliable(env) ==> r.result.Success?
    decreases |SolverIds| - i
  {
    if i == |SolverIds| then Run(Success([]), at)
    else
      ReliableDelivers(env, at, Solver.SolverRequest(question));
      var first := Solver.RunSolver(env, at, question, SolverIds[i]);
      match first.result
      case Failure(e) => Run(Failure(e), first.next)
      case Success(solution) =>
        var rest := SolveFrom(env, first.next, question, i + 1);
        match rest.result
        case Failure(e) => Run(Failure(e), rest.next)
        case Success(solutions) =>
          SolvedCons(env, at, question, solution, solutions, i);
          Run(Success([solution] + solutions), rest.next)
  }

  // ---------------------------------------------------------------- refinement

  /** A review's `solution_id` can be read. */
  predicate HasSolutionId(j: Json) {
    j.Obj? && "solution_id" in j.fields
  }

  /** Review `x` targets the agent `id`. */
  predicate Targets(x: Json, id: string) {
    HasSolutionId(x) && x.fields["solution_id"] == Str(id)
  }

  /** `a` occurs in `b` in order, possibly with gaps. */
  predicate Subsequence<T(==)>(a: seq<T>, b: seq<T>)
    decreases |b|
  {
    if a == [] then true
    else if b == [] then false
    else if a[0] == b[0] then Subsequence(a[1..], b[1..])
    else Subsequence(a, b[1..])
  }

  /** `[r for r in peer_reviews if r["solution_id"] == id]`: the reviews that
      target `id`, every one of them as often as it occurs, in their original
      order, and nothing else. */
  function ReviewsFor(reviews: seq<Json>, id: string): (r: seq<Json>)
    requires ReviewsTargeted(reviews)
    ensures forall k | 0 <= k < |r| :: Targets(r[k], id)
    ensures forall x | Targets(x, id) :: multiset(r)[x] == multiset(reviews)[x]
    ensures Subsequence(r, reviews)
  {
    if reviews == [] then []
    else
      var rest := ReviewsFor(reviews[1..], id);
      assert reviews == [reviews[0]] + reviews[1..];
      assert HasSolutionId(reviews[0]);
      if reviews[0].fields["solution_id"] == Str(id) then
        assert ([reviews[0]] + rest)[1..] == rest;
        [reviews[0]] + rest
      else
        rest
  }

  /** The refinement payload `{"original_solution": ..., "reviews": ...}`. */
  function RefineRequest(solver: Json, reviews: seq<Json>): (req: Request)
    requires HasStringId(solver)
    requires ReviewsTargeted(reviews)
    ensures req.prompt == SolverPrompt && req.payload.Dumped? && req.payload.doc.Obj?
    ensures req.payload.doc.fields.Keys == {"original_solution", "reviews"}
    ensures req.payload.doc.fields["original_solution"] == solver
    ensures req.payload.doc.fields["reviews"] == Arr(ReviewsFor(reviews, IdOf(solver)))
  {
    Request(SolverPrompt, Dumped(Obj(map[
      "original_solution" := solver,
      "reviews" := Arr(ReviewsFor(reviews, IdOf(solver)))])))
  }

  /** One refinement: the result keeps the solver's id; a rejected answer
      gives back the original solution itself. */
  function RefineOne(env: Env, at: nat, solver: Json, reviews: seq<Json>): (r: Run<Json>)
    requires HasStringId(solver)
    requires ReviewsTargeted(reviews)
    ensures at <= r.next
    ensures var call := CallLlmJson(env, at, RefineRequest(solver, reviews), IdOf(solver), Some(RefinedSchema));
            && r.next == call.next
            && (r.result.Failure? <==> call.result.Failure?)
            && (r.result.Failure? ==> r.result.error == TransportExhausted(MaxRetries))
    ensures r.result.Success? ==> HasStringId(r.result.value) && IdOf(r.result.value) == IdOf(solver)
    ensures r.result.Success? && Accepted(env, at, RefineRequest(solver, reviews), Some(RefinedSchema)).None? ==>
              r.result.value == solver
    ensures r.result.Success? && Validates(solver, SolverSchema) ==> Validates(r.result.value, RefinedSchema)
    ensures r.result.Failure? <==> FailsBetween(env, RefineRequest(solver, reviews), at, at + MaxRetries)
    ensures var accepted := Accepted(env, at, RefineRequest(solver, reviews), Some(RefinedSchema));
            r.result.Success? && accepted.Some? ==> r.result == Success(Stamp(accepted.value, IdOf(solver)))
  {
    var req := RefineRequest(solver, reviews);
    var call := CallLlmJson(env, at, req, IdOf(solver), Some(RefinedSchema));
    match call.result
    case Failure(e) => Run(Failure(e), call.next)
    case Success(None) =>
      StampSameId(solver);
      Run(Success(Stamp(solver, IdOf(solver))), call.next)
    case Success(Some(data)) =>
      ParsedConforms(env, at, req, IdOf(solver), RefinedSchema);
      StampKeepsValid(data, RefinedSchema, IdOf(solver));
      StampTwice(Accepted(env, at, req, Some(RefinedSchema)).value, IdOf(solver));
      Run(Success(Stamp(data, IdOf(solver))), call.next)
  }

  /** Every review's `solution_id` can be read. */
  predicate ReviewsTargeted(reviews: seq<Json>) {
    forall k | 0 <= k < |reviews| :: HasSolutionId(reviews[k])
  }

  /** `refinement` is what refining `solver` against `reviews` returned when
      started at some invocation. */
  ghost predicate RefinementOf(env: Env, solver: Json, reviews: seq<Json>, refinement: Json)
    requires HasStringId(solver) && ReviewsTargeted(reviews)
  {
    exists k: nat :: RefineOne(env, k, solver, reviews).result == Success(refinement)
  }

  /** `refined` holds one solution per solver, in order, each keeping its
      solver's id, valid under the refined schema when the original was
      valid under the solver schema, and returned by refining that solver. */
  ghost predicate RefinesOf(env: Env, solvers: seq<Json>, reviews: seq<Json>, refined: seq<Json>)
    requires AllHaveIds(solvers) && ReviewsTargeted(reviews)
  {
    && |refined| == |solvers|
    && forall k | 0 <= k < |solvers| ::
         && HasStringId(refined[k]) && IdOf(refined[k]) == IdOf(solvers[k])
         && (Validates(solvers[k], SolverSchema) ==> Validates(refined[k], RefinedSchema))
         && RefinementOf(env, solvers[k], reviews, refined[k])
  }

  lemma RefinesCons(env: Env, at: nat, solvers: seq<Json>, reviews: seq<Json>, first: Json, rest: seq<Json>)
    requires AllHaveIds(solvers) && solvers != [] && ReviewsTargeted(reviews)
    requires RefineOne(env, at, solvers[0], reviews).result == Success(first)
    requires AllHaveIds(solvers[1..]) && RefinesOf(env, solvers[1..], reviews, rest)
    ensures RefinesOf(env, solvers, reviews, [first] + rest)
  {
    var all := [first] + rest;
    forall k | 0 <= k < |solvers|
      ensures HasStringId(all[k]) && IdOf(all[k]) == IdOf(solvers[k])
      ensures Validates(solvers[k], SolverSchema) ==> Validates(all[k], RefinedSchema)
      ensures RefinementOf(env, solvers[k], reviews, all[k])
    {
      if k > 0 {
        assert all[k] == rest[k - 1] && solvers[k] == solvers[1..][k - 1];
      } else {
        assert RefineOne(env, at, solvers[0], reviews).result == Success(all[0]);
      }
    }
  }

  /** The refinement loop: one refined solution per solver, in order, each
      the result of refining that solver; it completes whenever the backend
      never fails in transport. */
  function RefineAll(env: Env, at: nat, solvers: seq<Json>, reviews: seq<Json>): (r: Run<seq<Json>>)
    requires AllHaveIds(solvers) && ReviewsTargeted(reviews)
    ensures at <= r.next
    ensures r.result.Failure? ==> r.result.error == TransportExhausted(MaxRetries)
    ensures r.result.Success? ==> RefinesOf(env, solvers, reviews, r.result.value)
    ensures Reliable(env) ==> r.result.Success?
    decreases |solvers|
  {
    if solvers == [] then Run(Success([]), at)
    else
      ReliableDelivers(env, at, RefineRequest(solvers[0], reviews));
      var first := RefineOne(env, at, solvers[0], reviews);
      match first.result
      case Failure(e) => Run(Failure(e), first.next)
      case Success(refined) =>
        var rest := RefineAll(env, first.next, solvers[1..], reviews);
        match rest.result
        case Failure(e) => Run(Failure(e), rest.next)
        case Success(refineds) =>
          RefinesCons(env, at, solvers, reviews, refined, refineds);
          Run(Success([refined] + refineds), rest.next)
  }

  // ---------------------------------------------------------------- one problem

  /** Everything one problem's run produces: the records the source persists
      per problem, and the verdict it returns. */
  datatype Outputs = Outputs(
    roles: map<string, Option<Json>>,
    solutions: seq<Json>,
    reviews: seq<Json>,
    refined: seq<Json>,
    judgment: Json)

  /** The six review tasks over three solvers, in submission order. */
  function Schedule(s: seq<Json>): seq<(Json, Json)>
    requires |s| == 3
  {
    [(s[0], s[1]), (s[0], s[2]), (s[1], s[0]), (s[1], s[2]), (s[2], s[0]), (s[2], s[1])]
  }

  /** Three solutions, in solver order, each conforming to `schema`. */
  predicate ThreeSolutions(s: seq<Json>, schema: Schema) {
    && |s| == 3 && AllHaveIds(s)
    && forall i | 0 <= i < 3 :: IdOf(s[i]) == SolverIds[i] && Validates(s[i], schema)
  }

  /** One review per scheduled task, in submission order, each answering its
      own task's solution. */
  ghost predicate ReviewsOfSchedule(env: Env, s: seq<Json>, reviews: seq<Json>)
    requires ThreeSolutions(s, SolverSchema)
  {
    && |reviews| == 6
    && forall k | 0 <= k < 6 :: Reviewer.ReviewOf(env, reviews[k], Schedule(s)[k].0, Schedule(s)[k].1)
  }

  /** The verdict conforms to the judgment schema and is either the default
      verdict for solver_1 or an accepted answer stamped by the judge. */
  predicate VerdictShape(judgment: Json) {
    && Validates(judgment, JudgeSchema)
    && (judgment == Judge.DefaultJudgment("solver_1") || (HasStringId(judgment) && IdOf(judgment) == JudgeRole))
  }

  /** `judgment` has the verdict's shape and is what the judge returned,
      started at some invocation, for these refined solutions and reviews. */
  ghost predicate VerdictOf(env: Env, refined: seq<Json>, reviews: seq<Json>, judgment: Json) {
    && VerdictShape(judgment)
    && exists k: nat :: Judge.RunJudge(PipelineImports, env, k, refined, reviews).result == Success(judgment)
  }

  lemma ValidReviewsHaveSolutionIds(reviews: seq<Json>)
    requires forall k | 0 <= k < |reviews| :: Validates(reviews[k], ReviewSchema)
    ensures ReviewsTargeted(reviews)
  {
    forall k | 0 <= k < |reviews| ensures HasSolutionId(reviews[k]) {
      ReviewShape(reviews[k]);
    }
  }

  /** The stages after the solvers: review, refine, judge. */
  datatype Downstream = Downstream(reviews: seq<Json>, refined: seq<Json>, judgment: Json)

  /** What review, refinement and judging produce from three solutions: the
      six scheduled reviews, one refinement of each solution against them,
      and the judge's verdict on those refinements. */
  ghost predicate DownstreamOf(env: Env, solutions: seq<Json>, d: Downstream)
    requires ThreeSolutions(solutions, SolverSchema)
  {
    && ReviewsOfSchedule(env, solutions, d.reviews)
    && ReviewsTargeted(d.reviews)
    && RefinesOf(env, solutions, d.reviews, d.refined)
    && ThreeSolutions(d.refined, RefinedSchema)
    && VerdictOf(env, d.refined, d.reviews, d.judgment)
  }

  /** The fan-out over three solvers: six reviews in submission order; it
      completes whenever the backend never fails in transport. */
  function ReviewThree(env: Env, at: nat, solutions: seq<Json>): (r: Run<seq<Json>>)
    requires ThreeSolutions(solutions, SolverSchema)
    ensures at <= r.next
    ensures r.result.Failure? ==> r.result.error == TransportExhausted(MaxRetries)
    ensures r.result.Success? ==> ReviewsOfSchedule(env, solutions, r.result.value)
    ensures r.result.Success? ==> ReviewsTargeted(r.result.value)
    ensures Reliable(env) ==> r.result.Success?
  {
    Reviewer.ThreeAgentSchedule(solutions);
    var reviewed := Reviewer.RunPeerReview(PipelineImports, env, at, solutions);
    if reviewed.result.Success? then
      ValidReviewsHaveSolutionIds(reviewed.result.value);
      reviewed
    else reviewed
  }

  /** Refine three solutions against the reviews, then judge; it completes
      whenever the backend never fails in transport. */
  function RefineAndJudge(env: Env, at: nat, solutions: seq<Json>, reviews: seq<Json>): (r: Run<(seq<Json>, Json)>)
    requires ThreeSolutions(solutions, SolverSchema)
    requires ReviewsTargeted(reviews)
    ensures at <= r.next
    ensures r.result.Failure? ==> r.result.error == TransportExhausted(MaxRetries)
    ensures r.result.Success? ==>
              && RefinesOf(env, solutions, reviews, r.result.value.0)
              && ThreeSolutions(r.result.value.0, RefinedSchema)
              && VerdictOf(env, r.result.value.0, reviews, r.result.value.1)
    ensures Reliable(env) ==> r.result.Success?
  {
    var refinedRun := RefineAll(env, at, solutions, reviews);
    if refinedRun.result.Failure? then Run(Failure(refinedRun.result.error), refinedRun.next) else
    var refined := refinedRun.result.value;
    assert IdOf(refined[0]) == "solver_1";
    var judged := Judge.RunJudge(PipelineImports, env, refinedRun.next, refined, reviews);
    match judged.result
    case Failure(e) => Run(Failure(e), judged.next)
    case Success(judgment) => Run(Success((refined, judgment)), judged.next)
  }

  /** Review, refine and judge three solutions; it completes whenever the
      backend never fails in transport. */
  function RunDownstream(env: Env, at: nat, solutions: seq<Json>): (r: Run<Downstream>)
    requires ThreeSolutions(solutions, SolverSchema)
    ensures at <= r.next
    ensures r.result.Failure? ==> r.result.error == TransportExhausted(MaxRetries)
    ensures r.result.Success? ==> DownstreamOf(env, solutions, r.result.value)
    ensures Reliable(env) ==> r.result.Success?
  {
    var reviewed := ReviewThree(env, at, solutions);
    if reviewed.result.Failure? then Run(Failure(reviewed.result.error), reviewed.next) else
    var rest := RefineAndJudge(env, reviewed.next, solutions, reviewed.result.value);
    match rest.result
    case Failure(e) => Run(Failure(e), rest.next)
    case Success((refined, judgment)) => Run(Success(Downstream(reviewed.result.value, refined, judgment)), rest.next)
  }

  /** What role self-assessment and the solvers produce for `question`: every
      solver key with its own prompt's answer or None, and one solution per
      solver, in order, from that solver's own stage. */
  ghost predicate PreparedOf(env: Env, question: string, roles: map<string, Option<Json>>, solutions: seq<Json>) {
    && roles.Keys == {"solver_1", "solver_2", "solver_3"}
    && InlineRolesOf(env, question, roles, 0)
    && EntriesStamped(roles)
    && SolvedFrom(env, question, solutions, 0)
    && ThreeSolutions(solutions, SolverSchema)
  }

  /** Role self-assessment, then the three solvers. Only transport
      exhaustion or an unstampable role answer escapes, and neither can
      happen when the backend always answers and every role answer is an
      object or does not decode. */
  function RolesAndSolutions(env: Env, at: nat, question: string): (r: Run<(map<string, Option<Json>>, seq<Json>)>)
    ensures at <= r.next
    ensures r.result.Failure? ==> r.result.error == TransportExhausted(MaxRetries) || r.result.error == NotAnObject
    ensures r.result.Success? ==> PreparedOf(env, question, r.result.value.0, r.result.value.1)
    ensures Reliable(env) && InlineObjectAnswers(env, question) ==> r.result.Success?
  {
    var roles := InlineRolesFrom(env, at, question, 0);
    if roles.result.Failure? then Run(Failure(roles.result.error), roles.next) else
    var solved := SolveFrom(env, roles.next, question, 0);
    if solved.result.Failure? then Run(Failure(solved.result.error), solved.next) else
    RoleAssignment.AllSolverIds();
    Run(Success((roles.result.value, solved.result.value)), solved.next)
  }

  /** What a completed run guarantees: every record comes from its own stage
      run on the records before it. */
  ghost predicate WellFormed(env: Env, question: string, o: Outputs) {
    && PreparedOf(env, question, o.roles, o.solutions)
    && ThreeSolutions(o.solutions, SolverSchema)
    && DownstreamOf(env, o.solutions, Downstream(o.reviews, o.refined, o.judgment))
  }

  /** The problem has a question, and every role answer for it is an object
      or does not decode. */
  ghost predicate Answerable(env: Env, problem: Problem) {
    problem.question.Some? && InlineObjectAnswers(env, problem.question.value)
  }

  /** `run_pipeline`. A missing question raises KeyError before any backend
      call; otherwise the only escaping exceptions are transport exhaustion
      and an unstampable role answer, and a completed run is well formed.
      The run completes when the backend always answers and the problem is
      answerable. */
  function RunPipeline(env: Env, at: nat, problem: Problem): (r: Run<Outputs>)
    ensures problem.question.None? ==> r == Run(Failure(MissingKey("question")), at)
    ensures r.result.Failure? ==>
              r.result.error in {MissingKey("question"), TransportExhausted(MaxRetries), NotAnObject}
    ensures r.result.Success? ==> problem.question.Some? && WellFormed(env, problem.question.value, r.result.value)
    ensures Reliable(env) && Answerable(env, problem) ==> r.result.Success?
    ensures at <= r.next
  {
    match problem.question
    case None => Run(Failure(MissingKey("question")), at)
    case Some(question) =>
      var prepared := RolesAndSolutions(env, at, question);
      if prepared.result.Failure? then Run(Failure(prepared.result.error), prepared.next) else
      var (roles, solutions) := prepared.result.value;
      var down := RunDownstream(env, prepared.next, solutions);
      match down.result
      case Failure(e) => Run(Failure(e), down.next)
      case Success(d) => Run(Success(Outputs(roles, solutions, d.reviews, d.refined, d.judgment)), down.next)
  }

  /** `judgment` is the verdict of a well-formed run of `problem`. */
  ghost predicate VerdictOfRun(env: Env, problem: Problem, judgment: Json) {
    && problem.question.Some?
    && exists o: Outputs :: WellFormed(env, problem.question.value, o) && o.judgment == judgment
  }

  /** What `run_pipeline` returns: the verdict of a completed, well-formed run. */
  function PipelineVerdict(env: Env, at: nat, problem: Problem): (r: Run<Json>)
    ensures at <= r.next
    ensures problem.question.None? ==> r == Run(Failure(MissingKey("question")), at)
    ensures r.result.Failure? ==>
              r.result.error in {MissingKey("question"), TransportExhausted(MaxRetries), NotAnObject}
    ensures r.result.Success? ==> Validates(r.result.value, JudgeSchema) && VerdictOfRun(env, problem, r.result.value)
    ensures Reliable(env) && Answerable(env, problem) ==> r.result.Success?
  {
    var run := RunPipeline(env, at, problem);
    match run.result
    case Failure(e) => Run(Failure(e), run.next)
    case Success(outputs) =>
      assert WellFormed(env, problem.question.value, outputs);
      Run(Success(outputs.judgment), run.next)
  }

  // ---------------------------------------------------------------- all problems

  /** One line of the aggregate `{"problem_id": ..., "judgment": ...}`. */
  datatype Entry = Entry(problemId: string, judgment: Json)

  /** One entry per problem, in order, with the problem's id or "N/A" and the
      verdict of a well-formed run of that problem. */
  ghost predicate EntriesFor(env: Env, entries: seq<Entry>, problems: seq<Problem>) {
    && |entries| == |problems|
    && forall i | 0 <= i < |problems| ::
         && entries[i].problemId == problems[i].id.GetOr("N/A")
         && Validates(entries[i].judgment, JudgeSchema)
         && VerdictOfRun(env, problems[i], entries[i].judgment)
  }

  lemma EntriesCons(env: Env, problems: seq<Problem>, judgment: Json, entries: seq<Entry>)
    requires problems != [] && Validates(judgment, JudgeSchema) && VerdictOfRun(env, problems[0], judgment)
    requires EntriesFor(env, entries, problems[1..])
    ensures EntriesFor(env, [Entry(problems[0].id.GetOr("N/A"), judgment)] + entries, problems)
  {
    var all := [Entry(problems[0].id.GetOr("N/A"), judgment)] + entries;
    forall i | 0 < i < |problems|
      ensures && all[i].problemId == problems[i].id.GetOr("N/A") && Validates(all[i].judgment, JudgeSchema)
              && VerdictOfRun(env, problems[i], all[i].judgment)
    {
      assert all[i] == entries[i - 1] && problems[i] == problems[1..][i - 1];
    }
  }

  /** Every problem of the batch is answerable. */
  ghost predicate AllAnswerable(env: Env, problems: seq<Problem>) {
    forall i | 0 <= i < |problems| :: Answerable(env, problems[i])
  }

  lemma AnswerableTail(env: Env, problems: seq<Problem>)
    requires problems != []
    ensures AllAnswerable(env, problems) ==> Answerable(env, problems[0]) && AllAnswerable(env, problems[1..])
  {
    if AllAnswerable(env, problems) {
      forall i | 0 <= i < |problems[1..]| ensures Answerable(env, problems[1..][i]) {
        assert problems[1..][i] == problems[i + 1];
      }
    }
  }

  /** `main`: run every problem in order and collect one entry per problem,
      its id defaulting to "N/A". Nothing catches an exception, so the first
      problem that raises ends the whole batch; when the backend always
      answers and every problem is answerable, the batch completes. */
  function RunAll(env: Env, at: nat, problems: seq<Problem>): (r: Run<seq<Entry>>)
    ensures at <= r.next
    ensures r.result.Failure? ==>
              r.result.error in {MissingKey("question"), TransportExhausted(MaxRetries), NotAnObject}
    ensures r.result.Success? ==> EntriesFor(env, r.result.value, problems)
    ensures Reliable(env) && AllAnswerable(env, problems) ==> r.result.Success?
    decreases |problems|
  {
    if problems == [] then Run(Success([]), at)
    else
      AnswerableTail(env, problems);
      var first := PipelineVerdict(env, at, problems[0]);
      match first.result
      case Failure(e) => Run(Failure(e), first.next)
      case Success(judgment) =>
        var rest := RunAll(env, first.next, problems[1..]);
        match rest.result
        case Failure(e) => Run(Failure(e), rest.next)
        case Success(entries) =>
          EntriesCons(env, problems, judgment, entries);
          Run(Success([Entry(problems[0].id.GetOr("N/A"), judgment)] + entries), rest.next)
  }

  /** A problem without a question makes the whole batch raise, whichever
      position it holds: every problem before it either raises first or
      completes and hands over to the next. */
  lemma {:induction false} MissingQuestionAborts(env: Env, at: nat, problems: seq<Problem>, i: nat)
    requires i < |problems| && problems[i].question.None?
    ensures RunAll(env, at, problems).result.Failure?
    decreases i
  {
    var first := PipelineVerdict(env, at, problems[0]);
    if i > 0 && first.result.Success? {
      assert problems[1..][i - 1] == problems[i];
      MissingQuestionAborts(env, first.next, problems[1..], i - 1);
    }
  }
}

=== FILE: records.dfy ===
/** Typed views of the records the schema documents describe: what a stage
    may rely on once a value has been validated, and how the fixed fallback
    records are laid out as JSON objects. */
module Records {
  import opened Wrappers
  import opened Json
  import opened Schemas

  datatype Step = Step(step: int, reasoning: string, answer: string)

  datatype Solution = Solution(solverId: string, steps: seq<Step>, finalAnswer: string, confidence: real)

  datatype Evaluation = Evaluation(
    strengths: seq<string>,
    weaknesses: seq<string>,
    errors: seq<Json>,
    suggestedChanges: seq<string>,
    scores: map<string, Json>)

  datatype Review = Review(reviewerId: string, solutionId: string, evaluation: Evaluation)

  datatype Judgment = Judgment(winner: string, confidence: real, reasoning: string)

  /** A role self-assessment; no schema is ever checked against it. */
  datatype RoleReport = RoleReport(preferredRole: string, confidence: real, reasoning: string)

  // ---------------------------------------------------------------- encoding

  function StepToJson(st: Step): Json {
    Obj(map["step" := Num(st.step as real), "reasoning" := Str(st.reasoning), "answer" := Str(st.answer)])
  }

  function StepsToJson(steps: seq<Step>): (js: seq<Json>)
    ensures |js| == |steps|
    ensures forall i | 0 <= i < |steps| :: js[i] == StepToJson(steps[i])
  {
    seq(|steps|, i requires 0 <= i < |steps| => StepToJson(steps[i]))
  }

  function StrsToJson(ss: seq<string>): (js: seq<Json>)
    ensures |js| == |ss|
    ensures forall i | 0 <= i < |ss| :: js[i] == Str(ss[i])
  {
    seq(|ss|, i requires 0 <= i < |ss| => Str(ss[i]))
  }

  function SolutionToJson(s: Solution): Json {
    Obj(map[
      SolverIdKey := Str(s.solverId),
      "steps" := Arr(StepsToJson(s.steps)),
      "final_answer" := Str(s.finalAnswer),
      "confidence" := Num(s.confidence)])
  }

  function EvaluationToJson(e: Evaluation): Json {
    Obj(map[
      "strengths" := Arr(StrsToJson(e.strengths)),
      "weaknesses" := Arr(StrsToJson(e.weaknesses)),
      "errors" := Arr(e.errors),
      "suggested_changes" := Arr(StrsToJson(e.suggestedChanges)),
      "scores" := Obj(e.scores)])
  }

  function ReviewToJson(r: Review): Json {
    Obj(map[
      "reviewer_id" := Str(r.reviewerId),
      "solution_id" := Str(r.solutionId),
      "evaluation" := EvaluationToJson(r.evaluation)])
  }

  function JudgmentToJson(j: Judgment): Json {
    Obj(map["winner" := Str(j.winner), "confidence" := Num(j.confidence), "reasoning" := Str(j.reasoning)])
  }

  function RoleReportToJson(r: RoleReport): Json {
    Obj(map["preferred_role" := Str(r.preferredRole), "confidence" := Num(r.confidence), "reasoning" := Str(r.reasoning)])
  }

  // ---------------------------------------------------------------- decoding

  function StepFromJson(j: Json): Option<Step> {
    if StepShaped(j) then
      Some(Step(j.fields["step"].n.Floor, j.fields["reasoning"].s, j.fields["answer"].s))
    else None
  }

  /** Decodes every step, or fails as soon as one does not decode. */
  function StepsFromJson(js: seq<Json>): (r: Option<seq<Step>>)
    ensures r.Some? <==> forall i | 0 <= i < |js| :: StepShaped(js[i])
    ensures r.Some? ==> |r.value| == |js| && forall i | 0 <= i < |js| :: Some(r.value[i]) == StepFromJson(js[i])
  {
    if js == [] then Some([])
    else
      var rest := StepsFromJson(js[1..]);
      assert forall i | 0 <= i < |js[1..]| :: js[1..][i] == js[i + 1];
      if StepShaped(js[0]) && rest.Some? then Some([StepFromJson(js[0]).value] + rest.value)
      else None
  }

  /** Decodes an array of strings, or fails if one element is not a string. */
  function StrsFromJson(js: seq<Json>): (r: Option<seq<string>>)
    ensures r.Some? <==> forall i | 0 <= i < |js| :: js[i].Str?
    ensures r.Some? ==> |r.value| == |js| && forall i | 0 <= i < |js| :: js[i] == Str(r.value[i])
  {
    if forall i | 0 <= i < |js| :: js[i].Str? then
      Some(seq(|js|, i requires 0 <= i < |js| && js[i].Str? => js[i].s))
    else None
  }

  function SolutionFromJson(j: Json): Option<Solution> {
    if && HasStringId(j) && HasString(j, "final_answer")
       && "steps" in j.fields && j.fields["steps"].Arr?
       && "confidence" in j.fields && j.fields["confidence"].Num?
    then
      match StepsFromJson(j.fields["steps"].items)
      case Some(steps) => Some(Solution(IdOf(j), steps, j.fields["final_answer"].s, j.fields["confidence"].n))
      case None => None
    else None
  }

  function EvaluationFromJson(e: Json): Option<Evaluation> {
    if && EvaluationShaped(e)
       && e.fields["strengths"].Arr? && e.fields["weaknesses"].Arr? && e.fields["suggested_changes"].Arr?
    then
      match (StrsFromJson(e.fields["strengths"].items), StrsFromJson(e.fields["weaknesses"].items),
             StrsFromJson(e.fields["suggested_changes"].items))
      case (Some(st), Some(wk), Some(sc)) =>
        Some(Evaluation(st, wk, e.fields["errors"].items, sc, e.fields["scores"].fields))
      case _ => None
    else None
  }

  function ReviewFromJson(j: Json): Option<Review> {
    if HasString(j, "reviewer_id") && HasString(j, "solution_id") && "evaluation" in j.fields then
      match EvaluationFromJson(j.fields["evaluation"])
      case Some(e) => Some(Review(j.fields["reviewer_id"].s, j.fields["solution_id"].s, e))
      case None => None
    else None
  }

  function JudgmentFromJson(j: Json): Option<Judgment> {
    if HasString(j, "winner") && HasString(j, "reasoning") && "confidence" in j.fields && j.fields["confidence"].Num?
    then Some(Judgment(j.fields["winner"].s, j.fields["confidence"].n, j.fields["reasoning"].s))
    else None
  }

  function RoleReportFromJson(j: Json): Option<RoleReport> {
    if HasString(j, "preferred_role") && HasString(j, "reasoning") && "confidence" in j.fields && j.fields["confidence"].Num?
    then Some(RoleReport(j.fields["preferred_role"].s, j.fields["confidence"].n, j.fields["reasoning"].s))
    else None
  }

  // ---------------------------------------------------------------- agreement

  lemma StepValidIff(st: Json)
    ensures Validates(st, StepSchema) <==> StepShaped(st)
  {
    if Validates(st, StepSchema) {
      RequiredProp(st, StepSchema, 0);
      RequiredProp(st, StepSchema, 1);
      RequiredProp(st, StepSchema, 2);
    }
    if StepShaped(st) {
      forall i | 0 <= i < |StepSchema.properties|
        ensures StepSchema.properties[i].name in st.fields ==>
                Validates(st.fields[StepSchema.properties[i].name], StepSchema.properties[i].schema)
      {
        // one case per property, so each case sees that property's own schema
        if i == 0 {} else if i == 1 {} else {}
      }
    }
  }

  /** The validator and the typed decoder accept exactly the same solutions. */
  lemma SolutionDecodesIffValid(j: Json)
    ensures SolutionFromJson(j).Some? <==> Validates(j, SolverSchema)
  {
    if Validates(j, SolverSchema) {
      SolutionShape(j);
    }
    if SolutionFromJson(j).Some? {
      var steps := j.fields["steps"].items;
      forall i | 0 <= i < |steps| ensures Validates(steps[i], StepSchema) {
        StepValidIff(steps[i]);
      }
      forall i | 0 <= i < |SolverSchema.properties|
        ensures SolverSchema.properties[i].name in j.fields ==>
                Validates(j.fields[SolverSchema.properties[i].name], SolverSchema.properties[i].schema)
      {
        // one case per property, so each case sees that property's own schema
        if i == 0 {} else if i == 1 {} else if i == 2 {} else {}
      }
    }
  }

  /** The validator and the typed decoder accept exactly the same evaluations. */
  lemma EvaluationDecodesIffValid(e: Json)
    ensures EvaluationFromJson(e).Some? <==> Validates(e, EvaluationSchema)
  {
    if Validates(e, EvaluationSchema) {
      EvaluationShape(e);
      RequiredProp(e, EvaluationSchema, 0);
      RequiredProp(e, EvaluationSchema, 1);
      RequiredProp(e, EvaluationSchema, 3);
    }
    if EvaluationFromJson(e).Some? {
      forall i | 0 <= i < |EvaluationSchema.properties|
        ensures EvaluationSchema.properties[i].name in e.fields ==>
                Validates(e.fields[EvaluationSchema.properties[i].name], EvaluationSchema.properties[i].schema)
      {
        // one case per property, so each case sees that property's own schema
        if i == 0 {} else if i == 1 {} else if i == 2 {} else if i == 3 {} else {}
      }
    }
  }

  /** The validator and the typed decoder accept exactly the same reviews. */
  lemma ReviewDecodesIffValid(j: Json)
    ensures ReviewFromJson(j).Some? <==> Validates(j, ReviewSchema)
  {
    if Validates(j, ReviewSchema) {
      ReviewShape(j);
      RequiredProp(j, ReviewSchema, 2);
      EvaluationDecodesIffValid(j.fields["evaluation"]);
    }
    if ReviewFromJson(j).Some? {
      EvaluationDecodesIffValid(j.fields["evaluation"]);
      forall i | 0 <= i < |ReviewSchema.properties|
        ensures ReviewSchema.properties[i].name in j.fields ==>
                Validates(j.fields[ReviewSchema.properties[i].name], ReviewSchema.properties[i].schema)
      {
        // one case per property, so each case sees that property's own schema
        if i == 0 {} else if i == 1 {} else {}
      }
    }
  }

  /** The validator and the typed decoder accept exactly the same judgments. */
  lemma JudgmentDecodesIffValid(j: Json)
    ensures JudgmentFromJson(j).Some? <==> Validates(j, JudgeSchema)
  {
    if Validates(j, JudgeSchema) {
      JudgmentShape(j);
    }
    if JudgmentFromJson(j).Some? {
      forall i | 0 <= i < |JudgeSchema.properties|
        ensures JudgeSchema.properties[i].name in j.fields ==>
                Validates(j.fields[JudgeSchema.properties[i].name], JudgeSchema.properties[i].schema)
      {
        // one case per property, so each case sees that property's own schema
        if i == 0 {} else if i == 1 {} else {}
      }
    }
  }

  // ---------------------------------------------------------------- round trips

  lemma SolutionRoundTrip(s: Solution)
    ensures SolutionFromJson(SolutionToJson(s)) == Some(s)
    ensures Validates(SolutionToJson(s), SolverSchema)
  {
    var js := StepsToJson(s.steps);
    forall i | 0 <= i < |js| ensures StepShaped(js[i]) && StepFromJson(js[i]) == Some(s.steps[i]) {
      assert (s.steps[i].step as real).Floor == s.steps[i].step;
    }
    var decoded := StepsFromJson(js);
    assert decoded.value == s.steps;
    SolutionDecodesIffValid(SolutionToJson(s));
  }

  lemma ReviewRoundTrip(r: Review)
    ensures ReviewFromJson(ReviewToJson(r)) == Some(r)
    ensures Validates(ReviewToJson(r), ReviewSchema)
  {
    var e := r.evaluation;
    assert StrsFromJson(StrsToJson(e.strengths)).value == e.strengths;
    assert StrsFromJson(StrsToJson(e.weaknesses)).value == e.weaknesses;
    assert StrsFromJson(StrsToJson(e.suggestedChanges)).value == e.suggestedChanges;
    assert EvaluationFromJson(EvaluationToJson(e)) == Some(e);
    ReviewDecodesIffValid(ReviewToJson(r));
  }

  lemma JudgmentRoundTrip(j: Judgment)
    ensures JudgmentFromJson(JudgmentToJson(j)) == Some(j)
    ensures Validates(JudgmentToJson(j), JudgeSchema)
  {
    JudgmentDecodesIffValid(JudgmentToJson(j));
  }

  lemma RoleReportRoundTrip(r: RoleReport)
    ensures RoleReportFromJson(RoleReportToJson(r)) == Some(r)
  {
  }
}

=== FILE: reviewer.dfy ===
/** The peer-review fan-out: one review task per ordered pair (reviewer,
    solution) of distinct agents, results collected in submission order.
    The thread pool is modelled by running the tasks one after another in
    the order they are submitted, which is also the order their results are
    read back. */
module Reviewer {
  import opened Wrappers
  import opened Json
  import opened Schemas
  import opened Records
  import opened Client

  // ---------------------------------------------------------------- scheduling

  /** The tasks one reviewer submits: one per solution by another agent, in
      the order of `solutions`. */
  function Row(reviewer: Json, solutions: seq<Json>): (r: seq<(Json, Json)>)
    requires HasStringId(reviewer) && AllHaveIds(solutions)
    ensures |r| == |solutions| - CountId(solutions, IdOf(reviewer))
    ensures forall k | 0 <= k < |r| ::
              r[k].0 == reviewer && r[k].1 in solutions && IdOf(r[k].1) != IdOf(reviewer)
  {
    if solutions == [] then []
    else
      var rest := Row(reviewer, solutions[1..]);
      if IdOf(solutions[0]) != IdOf(reviewer) then [(reviewer, solutions[0])] + rest else rest
  }

  /** The number of elements of `js` whose `solver_id` is `id`. */
  function CountId(js: seq<Json>, id: string): (n: nat)
    requires AllHaveIds(js)
    ensures n <= |js|
  {
    if js == [] then 0 else (if IdOf(js[0]) == id then 1 else 0) + CountId(js[1..], id)
  }

  /** All submitted tasks, reviewer-major and solution-minor, exactly as the
      two nested loops submit them. */
  function Pairs(reviewers: seq<Json>, solutions: seq<Json>): (r: seq<(Json, Json)>)
    requires AllHaveIds(reviewers) && AllHaveIds(solutions)
    ensures forall k | 0 <= k < |r| ::
              && r[k].0 in reviewers && r[k].1 in solutions
              && HasStringId(r[k].0) && HasStringId(r[k].1)
              && IdOf(r[k].0) != IdOf(r[k].1)
  {
    if reviewers == [] then []
    else Row(reviewers[0], solutions) + Pairs(reviewers[1..], solutions)
  }

  /** Every pair of agents with distinct ids is scheduled. */
  lemma {:induction false} PairsComplete(reviewers: seq<Json>, solutions: seq<Json>, a: Json, b: Json)
    requires AllHaveIds(reviewers) && AllHaveIds(solutions)
    requires a in reviewers && b in solutions && HasStringId(a) && HasStringId(b) && IdOf(a) != IdOf(b)
    ensures (a, b) in Pairs(reviewers, solutions)
  {
    if reviewers[0] == a {
      RowComplete(a, solutions, b);
    } else {
      PairsComplete(reviewers[1..], solutions, a, b);
    }
  }

  lemma {:induction false} RowComplete(reviewer: Json, solutions: seq<Json>, b: Json)
    requires HasStringId(reviewer) && AllHaveIds(solutions)
    requires b in solutions && HasStringId(b) && IdOf(b) != IdOf(reviewer)
    ensures (reviewer, b) in Row(reviewer, solutions)
  {
    if solutions[0] != b {
      RowComplete(reviewer, solutions[1..], b);
    }
  }

  /** No two agents share a `solver_id`. */
  predicate DistinctIds(js: seq<Json>)
    requires AllHaveIds(js)
  {
    forall i, j | 0 <= i < j < |js| :: IdOf(js[i]) != IdOf(js[j])
  }

  /** With distinct ids, an agent's id occurs exactly once. */
  lemma {:induction false} CountOwnId(js: seq<Json>, i: nat)
    requires AllHaveIds(js) && DistinctIds(js) && i < |js|
    ensures CountId(js, IdOf(js[i])) == 1
  {
    if i == 0 {
      CountAbsent(js[1..], IdOf(js[0]));
    } else {
      assert js[1..][i - 1] == js[i];
      CountOwnId(js[1..], i - 1);
    }
  }

  lemma {:induction false} CountAbsent(js: seq<Json>, id: string)
    requires AllHaveIds(js)
    requires forall k | 0 <= k < |js| :: IdOf(js[k]) != id
    ensures CountId(js, id) == 0
  {
    if js != [] {
      CountAbsent(js[1..], id);
    }
  }

  /** For N agents with distinct ids, each reviewer submits N - 1 tasks, so
      the fan-out submits N * (N - 1). */
  lemma {:induction false} PairsCount(reviewers: seq<Json>, outputs: seq<Json>)
    requires AllHaveIds(outputs) && DistinctIds(outputs)
    requires AllHaveIds(reviewers) && forall k | 0 <= k < |reviewers| :: reviewers[k] in outputs
    ensures |Pairs(reviewers, outputs)| == |reviewers| * (|outputs| - 1)
  {
    if reviewers != [] {
      var n := |outputs| - 1;
      var i :| 0 <= i < |outputs| && outputs[i] == reviewers[0];
      CountOwnId(outputs, i);
      assert |Row(reviewers[0], outputs)| == n;
      assert forall k | 0 <= k < |reviewers[1..]| :: reviewers[1..][k] == reviewers[k + 1];
      PairsCount(reviewers[1..], outputs);
      assert |Pairs(reviewers, outputs)| == n + (|reviewers| - 1) * n;
      MulStep(|reviewers|, n);
    }
  }

  lemma MulStep(m: int, n: int)
    ensures n + (m - 1) * n == m * n
  {
  }

  /** The row of one reviewer over three agents, spelled out. */
  lemma RowOfThree(x: Json, s: seq<Json>)
    requires |s| == 3 && HasStringId(x) && AllHaveIds(s)
    ensures Row(x, s) ==
              (if IdOf(s[0]) != IdOf(x) then [(x, s[0])] else [])
              + (if IdOf(s[1]) != IdOf(x) then [(x, s[1])] else [])
              + (if IdOf(s[2]) != IdOf(x) then [(x, s[2])] else [])
  {
    var t := s[1..];
    var u := t[1..];
    assert t[0] == s[1] && u[0] == s[2] && u[1..] == [];
    assert AllHaveIds(t) && AllHaveIds(u);
  }

  /** The schedule over three reviewers, spelled out. */
  lemma PairsOfThree(s: seq<Json>, all: seq<Json>)
    requires |s| == 3 && AllHaveIds(s) && AllHaveIds(all)
    ensures Pairs(s, all) == Row(s[0], all) + Row(s[1], all) + Row(s[2], all)
  {
    var t := s[1..];
    var u := t[1..];
    assert t[0] == s[1] && u[0] == s[2] && u[1..] == [];
    assert AllHaveIds(t) && AllHaveIds(u);
    assert Pairs(u, all) == Row(u[0], all) + Pairs(u[1..], all);
    assert Pairs(t, all) == Row(t[0], all) + Pairs(u, all);
  }

  /** With three agents the six tasks are submitted in this order. */
  lemma ThreeAgentSchedule(outputs: seq<Json>)
    requires |outputs| == 3 && AllHaveIds(outputs) && DistinctIds(outputs)
    ensures var s := outputs;
            Pairs(s, s) == [(s[0], s[1]), (s[0], s[2]), (s[1], s[0]), (s[1], s[2]), (s[2], s[0]), (s[2], s[1])]
  {
    var s := outputs;
    PairsOfThree(s, s);
    RowOfThree(s[0], s);
    RowOfThree(s[1], s);
    RowOfThree(s[2], s);
  }

  // ---------------------------------------------------------------- one task

  const NeutralScores: map<string, Json> := map["correctness" := Num(0.5), "clarity" := Num(0.5)]

  /** The review used when the reviewer's answer cannot be used: nothing
      found, neutral scores, tagged with the pair's two ids. */
  function NeutralReview(reviewerId: string, solutionId: string): (j: Json)
    ensures ReviewFromJson(j) == Some(Review(reviewerId, solutionId, Evaluation([], [], [], [], NeutralScores)))
    ensures Validates(j, ReviewSchema)
  {
    ReviewRoundTrip(Review(reviewerId, solutionId, Evaluation([], [], [], [], NeutralScores)));
    ReviewToJson(Review(reviewerId, solutionId, Evaluation([], [], [], [], NeutralScores)))
  }

  function ReviewRequest(solution: Json): Request {
    Request(ReviewerPrompt, Dumped(solution))
  }

  /** The names the reviewer module's imports bind: `json` is not among them. */
  const ReviewerImports: set<string> := {"ThreadPoolExecutor", "call_llm_json", "os", "REVIEW_SCHEMA"}

  /** `rv` is the answer a review task for this pair, started at invocation
      `k`, accepts: the backend's answer to this solution's review request,
      stamped with the reviewer's id when that id is non-empty. */
  ghost predicate AnswerAt(env: Env, k: nat, rv: Json, reviewer: Json, solution: Json)
    requires HasStringId(reviewer) && HasStringId(solution)
  {
    var accepted := Accepted(env, k, ReviewRequest(solution), Some(ReviewSchema));
    && accepted.Some? && accepted.value.Obj?
    && rv == (if IdOf(reviewer) == "" then accepted.value else Stamp(accepted.value, IdOf(reviewer)))
  }

  /** `rv` is a review of `solution` by `reviewer`: it conforms to the review
      schema and is either the neutral review for the pair or an answer the
      backend gave to this very solution's review request, accepted and
      stamped. An accepted answer's own `reviewer_id` and `solution_id` are
      whatever the backend wrote. */
  ghost predicate ReviewOf(env: Env, rv: Json, reviewer: Json, solution: Json)
    requires HasStringId(reviewer) && HasStringId(solution)
  {
    && Validates(rv, ReviewSchema)
    && (|| rv == NeutralReview(IdOf(reviewer), IdOf(solution))
        || exists k: nat :: AnswerAt(env, k, rv, reviewer, solution))
  }

  lemma ReviewSchemaStampSafe()
    ensures StampSafe(ReviewSchema)
  {
  }

  /** The inner `review_task` in a module whose imports bind `scope`. Its
      call's arguments evaluate `json.dumps(solution)` first, so without
      `json` it raises NameError before the backend is reached. */
  function ReviewTask(scope: set<string>, env: Env, at: nat, reviewer: Json, solution: Json): (r: Run<Json>)
    requires HasStringId(reviewer) && HasStringId(solution)
    ensures "json" !in scope ==> r == Run(Failure(Unbound("json")), at)
    ensures "json" in scope ==>
              var call := CallLlmJson(env, at, ReviewRequest(solution), IdOf(reviewer), Some(ReviewSchema));
              && r.next == call.next
              && (r.result.Failure? <==> call.result.Failure?)
              && (r.result.Failure? ==> r.result.error == TransportExhausted(MaxRetries))
    ensures "json" in scope ==> (r.result.Failure? <==> FailsBetween(env, ReviewRequest(solution), at, at + MaxRetries))
    ensures r.result.Success? ==> ReviewOf(env, r.result.value, reviewer, solution) && AnswerOrNeutral(env, at, r.result.value, reviewer, solution)
    ensures "json" in scope && r.result.Success? && Accepted(env, at, ReviewRequest(solution), Some(ReviewSchema)).None? ==>
              r.result.value == NeutralReview(IdOf(reviewer), IdOf(solution))
    ensures var accepted := Accepted(env, at, ReviewRequest(solution), Some(ReviewSchema));
            "json" in scope && accepted.Some? && IdOf(reviewer) != "" ==>
              r.result == Success(Stamp(accepted.value, IdOf(reviewer)))
  {
    match Dumps(scope, solution)
    case Failure(e) => Run(Failure(e), at)
    case Success(payload) =>
      var req := Request(ReviewerPrompt, payload);
      var call := CallLlmJson(env, at, req, IdOf(reviewer), Some(ReviewSchema));
      match call.result
      case Failure(e) => Run(Failure(e), call.next)
      case Success(None) => Run(Success(NeutralReview(IdOf(reviewer), IdOf(solution))), call.next)
      case Success(Some(data)) =>
        ReviewSchemaStampSafe();
        ParsedConforms(env, at, req, IdOf(reviewer), ReviewSchema);
        assert AnswerAt(env, at, data, reviewer, solution);
        Run(Success(data), call.next)
  }

  /** The answer of the task started at `at`, or the pair's neutral review. */
  ghost predicate AnswerOrNeutral(env: Env, at: nat, rv: Json, reviewer: Json, solution: Json)
    requires HasStringId(reviewer) && HasStringId(solution)
  {
    rv == NeutralReview(IdOf(reviewer), IdOf(solution)) || AnswerAt(env, at, rv, reviewer, solution)
  }

  // ---------------------------------------------------------------- fan-out / fan-in

  /** Both agents of every pair carry a string id. */
  predicate PairsHaveIds(pairs: seq<(Json, Json)>) {
    forall k | 0 <= k < |pairs| :: HasStringId(pairs[k].0) && HasStringId(pairs[k].1)
  }

  lemma PairsTail(pairs: seq<(Json, Json)>)
    requires pairs != []
    ensures PairsHaveIds(pairs) ==> HasStringId(pairs[0].0) && HasStringId(pairs[0].1) && PairsHaveIds(pairs[1..])
  {
    if PairsHaveIds(pairs) {
      forall k | 0 <= k < |pairs[1..]| ensures HasStringId(pairs[1..][k].0) && HasStringId(pairs[1..][k].1) {
        assert pairs[1..][k] == pairs[k + 1];
      }
    }
  }

  /** Runs the tasks in submission order and collects one review per task;
      the first task that raises ends the whole fan-out with its exception.
      Review k answers pair k's own solution. */
  function RunReviews(scope: set<string>, env: Env, at: nat, pairs: seq<(Json, Json)>): (r: Run<seq<Json>>)
    requires PairsHaveIds(pairs)
    ensures at <= r.next <= at + MaxRetries * |pairs|
    ensures "json" !in scope && pairs != [] ==> r == Run(Failure(Unbound("json")), at)
    ensures r.result.Failure? ==> r.result.error == if "json" in scope then TransportExhausted(MaxRetries) else Unbound("json")
    ensures r.result.Success? ==>
              && |r.result.value| == |pairs|
              && forall k | 0 <= k < |pairs| :: ReviewOf(env, r.result.value[k], pairs[k].0, pairs[k].1)
    ensures "json" in scope && Reliable(env) ==> r.result.Success?
    decreases |pairs|
  {
    if pairs == [] then Run(Success([]), at)
    else
      PairsTail(pairs);
      ReliableDelivers(env, at, ReviewRequest(pairs[0].1));
      var first := ReviewTask(scope, env, at, pairs[0].0, pairs[0].1);
      match first.result
      case Failure(e) => Run(Failure(e), first.next)
      case Success(review) =>
        var rest := RunReviews(scope, env, first.next, pairs[1..]);
        match rest.result
        case Failure(e) => Run(Failure(e), rest.next)
        case Success(reviews) =>
          ReviewsCons(env, pairs, review, reviews);
          Run(Success([review] + reviews), rest.next)
  }

  /** A review of the first pair followed by reviews of the remaining pairs,
      position by position, reviews every pair in order. */
  lemma ReviewsCons(env: Env, pairs: seq<(Json, Json)>, review: Json, reviews: seq<Json>)
    requires pairs != []
    requires PairsHaveIds(pairs)
    requires ReviewOf(env, review, pairs[0].0, pairs[0].1)
    requires |reviews| == |pairs| - 1
    requires forall k | 0 <= k < |reviews| :: ReviewOf(env, reviews[k], pairs[1..][k].0, pairs[1..][k].1)
    ensures forall k | 0 <= k < |pairs| :: ReviewOf(env, ([review] + reviews)[k], pairs[k].0, pairs[k].1)
  {
    forall k | 0 <= k < |pairs| ensures ReviewOf(env, ([review] + reviews)[k], pairs[k].0, pairs[k].1) {
      if k > 0 {
        assert ([review] + reviews)[k] == reviews[k - 1] && pairs[k] == pairs[1..][k - 1];
      }
    }
  }

  /** `run_peer_review` in a module whose imports bind `scope`: one review per
      scheduled pair, in submission order. Without `json` the first task's
      NameError is re-raised when its future is read, so only an empty
      schedule completes. */
  function RunPeerReview(scope: set<string>, env: Env, at: nat, outputs: seq<Json>): (r: Run<seq<Json>>)
    requires AllHaveIds(outputs)
    ensures r.result.Failure? ==> r.result.error == if "json" in scope then TransportExhausted(MaxRetries) else Unbound("json")
    ensures "json" !in scope ==> r.next == at && (r.result.Success? <==> Pairs(outputs, outputs) == [])
    ensures r.result.Success? ==>
              var pairs := Pairs(outputs, outputs);
              && |r.result.value| == |pairs|
              && (DistinctIds(outputs) ==> |r.result.value| == |outputs| * (|outputs| - 1))
              && forall k | 0 <= k < |pairs| :: ReviewOf(env, r.result.value[k], pairs[k].0, pairs[k].1)
    ensures "json" in scope && Reliable(env) ==> r.result.Success?
  {
    if DistinctIds(outputs) then
      PairsCount(outputs, outputs);
      RunReviews(scope, env, at, Pairs(outputs, outputs))
    else
      RunReviews(scope, env, at, Pairs(outputs, outputs))
  }

  /** `run_peer_review` as written, in its own module: whenever any pair is
      scheduled it raises NameError before reaching the backend. */
  function RunPeerReviewAsWritten(env: Env, at: nat, outputs: seq<Json>): (r: Run<seq<Json>>)
    requires AllHaveIds(outputs)
    ensures r.next == at
    ensures r.result.Success? <==> Pairs(outputs, outputs) == []
    ensures r.result.Failure? ==> r.result.error == Unbound("json")
  {
    RunPeerReview(ReviewerImports, env, at, outputs)
  }

  /** A backend that always answers, with text that never decodes. */
  ghost predicate AlwaysGarbled(env: Env) {
    forall k: nat, req: Request :: env.reply(k, req).Text? && env.loads(env.reply(k, req).content).None?
  }

  /** The neutral review of every pair, in order. */
  function NeutralsFor(pairs: seq<(Json, Json)>): (r: seq<Json>)
    requires PairsHaveIds(pairs)
  {
    if pairs == [] then []
    else
      PairsTail(pairs);
      [NeutralReview(IdOf(pairs[0].0), IdOf(pairs[0].1))] + NeutralsFor(pairs[1..])
  }

  /** With a garbled answer, one task costs one invocation and yields the
      neutral review. */
  lemma GarbledTask(scope: set<string>, env: Env, at: nat, reviewer: Json, solution: Json)
    requires "json" in scope && AlwaysGarbled(env)
    requires HasStringId(reviewer) && HasStringId(solution)
    ensures ReviewTask(scope, env, at, reviewer, solution)
            == Run(Success(NeutralReview(IdOf(reviewer), IdOf(solution))), at + 1)
  {
    var req := ReviewRequest(solution);
    assert env.reply(at, req).Text?;
    assert CallLlm(env, at, req, MaxRetries) == Call(Delivered(env.reply(at, req).content), 1);
  }

  /** A completed first task followed by a completed fan-out over the rest
      is the completed fan-out over all the pairs. */
  lemma ReviewsUnfold(scope: set<string>, env: Env, at: nat, pairs: seq<(Json, Json)>,
                      review: Json, mid: nat, reviews: seq<Json>, next: nat)
    requires pairs != []
    requires PairsHaveIds(pairs)
    requires ReviewTask(scope, env, at, pairs[0].0, pairs[0].1) == Run(Success(review), mid)
    requires RunReviews(scope, env, mid, pairs[1..]) == Run(Success(reviews), next)
    ensures RunReviews(scope, env, at, pairs) == Run(Success([review] + reviews), next)
  {
  }

  /** When every answer is garbled, each task costs one invocation and the
      fan-out returns the neutral review of every scheduled pair, in order. */
  lemma {:induction false} GarbledFanOut(scope: set<string>, env: Env, at: nat, pairs: seq<(Json, Json)>)
    requires "json" in scope && AlwaysGarbled(env)
    requires PairsHaveIds(pairs)
    ensures RunReviews(scope, env, at, pairs) == Run(Success(NeutralsFor(pairs)), at + |pairs|)
    decreases |pairs|
  {
    if pairs != [] {
      PairsTail(pairs);
      GarbledTask(scope, env, at, pairs[0].0, pairs[0].1);
      GarbledFanOut(scope, env, at + 1, pairs[1..]);
      ReviewsUnfold(scope, env, at, pairs, NeutralReview(IdOf(pairs[0].0), IdOf(pairs[0].1)), at + 1,
                    NeutralsFor(pairs[1..]), at + |pairs|);
    }
  }

  lemma TwoAgentSchedule(a: Json, b: Json)
    requires HasStringId(a) && HasStringId(b) && IdOf(a) != IdOf(b)
    ensures Pairs([a, b], [a, b]) == [(a, b), (b, a)]
  {
    var s := [a, b];
    var t := s[1..];
    assert t[0] == b && t[1..] == [];
    assert Row(a, t) == [(a, b)];
    assert Row(a, s) == [(a, b)];
    assert Row(b, t) == [];
    assert Row(b, s) == [(b, a)];
    assert Pairs(t, s) == [(b, a)];
  }

  /** Two agents are enough to tell the two apart: with a backend whose
      every answer is garbled, the module with `json` bound returns the two
      neutral reviews while the module as written raises. */
  lemma AsWrittenRaises(env: Env, at: nat, a: Json, b: Json)
    requires HasStringId(a) && HasStringId(b) && IdOf(a) != IdOf(b)
    requires AlwaysGarbled(env)
    ensures RunPeerReviewAsWritten(env, at, [a, b]).result == Failure(Unbound("json"))
    ensures RunPeerReview(ReviewerImports + {"json"}, env, at, [a, b]).result
            == Success([NeutralReview(IdOf(a), IdOf(b)), NeutralReview(IdOf(b), IdOf(a))])
  {
    TwoAgentSchedule(a, b);
    var pairs := [(a, b), (b, a)];
    GarbledFanOut(ReviewerImports + {"json"}, env, at, pairs);
    assert pairs[1..][1..] == [];
    assert NeutralsFor(pairs) == [NeutralReview(IdOf(a), IdOf(b)), NeutralReview(IdOf(b), IdOf(a))];
  }
}

=== FILE: role_assignment.dfy ===
/** Role self-assessment: each solver reports the role it prefers. The
    reports are informational; no later stage reads them. */
module RoleAssignment {
  import opened Wrappers
  import opened Json
  import opened Records
  import opened Client
  import opened Agents

  /** The report used when an answer cannot be decoded. It carries no `solver_id`. */
  function DefaultRole(): (j: Json)
    ensures RoleReportFromJson(j) == Some(RoleReport("Solver", 0.8, "Defaulted to Solver."))
    ensures j.Obj? && SolverIdKey !in j.fields
  {
    RoleReportRoundTrip(RoleReport("Solver", 0.8, "Defaulted to Solver."));
    RoleReportToJson(RoleReport("Solver", 0.8, "Defaulted to Solver."))
  }

  function RoleRequest(problemText: string): Request {
    Request(RoleSelfAssessment, Plain(problemText))
  }

  /** `solver_{i}` for the solvers from position `i` on. */
  function IdsFrom(i: nat): set<string>
    requires i <= |SolverIds|
  {
    set k | i <= k < |SolverIds| :: SolverIds[k]
  }

  /** `report` is what the call for solver `id` started at invocation `k`
      stores: the backend delivered an answer, and the report is the default
      when that answer does not decode, or the decoded object stamped with
      `id`. No schema is checked, so any JSON object is accepted. */
  ghost predicate RoleAnswerAt(env: Env, k: nat, problemText: string, report: Json, id: string) {
    var accepted := Accepted(env, k, RoleRequest(problemText), None);
    && CallLlm(env, k, RoleRequest(problemText), MaxRetries).outcome.Delivered?
    && (|| (accepted.None? && report == DefaultRole())
        || (accepted.Some? && accepted.value.Obj? && report == Stamp(accepted.value, id)))
  }

  /** `report` is solver `id`'s report: the outcome of some call for it. */
  ghost predicate RoleOf(env: Env, problemText: string, report: Json, id: string) {
    exists k: nat :: RoleAnswerAt(env, k, problemText, report, id)
  }

  /** Every report in `roles` is the outcome of a call for its own key. */
  ghost predicate RolesOf(env: Env, problemText: string, roles: map<string, Json>) {
    forall id | id in roles :: RoleOf(env, problemText, roles[id], id)
  }

  lemma RolesExtend(env: Env, at: nat, problemText: string, roles: map<string, Json>, id: string, report: Json)
    requires RolesOf(env, problemText, roles) && RoleAnswerAt(env, at, problemText, report, id)
    ensures RolesOf(env, problemText, roles[id := report])
  {
    var extended := roles[id := report];
    forall x | x in extended ensures RoleOf(env, problemText, extended[x], x) {
      if x == id {
        assert RoleAnswerAt(env, at, problemText, extended[x], x);
      }
    }
  }

  /** Adding solver `i`'s report to the later solvers' reports keeps the key
      set and the link to the backend's answers. */
  lemma RolesStep(env: Env, at: nat, problemText: string, i: nat, report: Json, roles: map<string, Json>)
    requires i < |SolverIds|
    requires RoleAnswerAt(env, at, problemText, report, SolverIds[i])
    requires roles.Keys == IdsFrom(i + 1) && RolesOf(env, problemText, roles)
    ensures var extended := roles[SolverIds[i] := report];
            && extended.Keys == IdsFrom(i)
            && RolesOf(env, problemText, extended)
            && RoleAnswerAt(env, at, problemText, extended[SolverIds[i]], SolverIds[i])
  {
    assert IdsFrom(i) == IdsFrom(i + 1) + {SolverIds[i]};
    RolesExtend(env, at, problemText, roles, SolverIds[i], report);
  }

  /** One iteration of the loop: the report for solver `id`, the default
      when the answer does not decode. */
  function RoleCall(env: Env, at: nat, problemText: string, id: string): (r: Run<Json>)
    requires id != ""
    ensures at <= r.next <= at + MaxRetries
    ensures r.result.Failure? ==> r.result.error == TransportExhausted(MaxRetries) || r.result.error == NotAnObject
    ensures r.result.Success? ==> RoleAnswerAt(env, at, problemText, r.result.value, id)
    ensures var accepted := Accepted(env, at, RoleRequest(problemText), None);
            r.result.Failure? <==>
              || FailsBetween(env, RoleRequest(problemText), at, at + MaxRetries)
              || (accepted.Some? && !accepted.value.Obj?)
  {
    var call := CallLlmJson(env, at, RoleRequest(problemText), id, None);
    match call.result
    case Failure(e) => Run(Failure(e), call.next)
    case Success(output) => Run(Success(output.GetOr(DefaultRole())), call.next)
  }

  /** The loop of `assign_roles` from position `i` on. Only transport
      exhaustion, or a decoded value that is not an object (the stamp then
      raises TypeError), escapes. */
  function AssignRolesFrom(env: Env, at: nat, problemText: string, i: nat): (r: Run<map<string, Json>>)
    requires i <= |SolverIds|
    ensures at <= r.next <= at + MaxRetries * (|SolverIds| - i)
    ensures r.result.Failure? ==> r.result.error == TransportExhausted(MaxRetries) || r.result.error == NotAnObject
    ensures r.result.Success? ==>
              && r.result.value.Keys == IdsFrom(i)
              && RolesOf(env, problemText, r.result.value)
    ensures i < |SolverIds| && r.result.Success? ==>
              RoleAnswerAt(env, at, problemText, r.result.value[SolverIds[i]], SolverIds[i])
    ensures Reliable(env) && ObjectAnswers(env, RoleRequest(problemText)) ==> r.result.Success?
    decreases |SolverIds| - i
  {
    if i == |SolverIds| then Run(Success(map[]), at)
    else
      ReliableDelivers(env, at, RoleRequest(problemText));
      var id := SolverIds[i];
      var call := RoleCall(env, at, problemText, id);
      match call.result
      case Failure(e) => Run(Failure(e), call.next)
      case Success(report) =>
        var rest := AssignRolesFrom(env, call.next, problemText, i + 1);
        match rest.result
        case Failure(e) => Run(Failure(e), rest.next)
        case Success(roles) =>
          RolesStep(env, at, problemText, i, report, roles);
          Run(Success(roles[id := report]), rest.next)
  }

  /** The keys of a complete loop are the three solver ids. */
  lemma AllSolverIds()
    ensures IdsFrom(0) == {"solver_1", "solver_2", "solver_3"}
  {
    assert SolverIds[0] in IdsFrom(0);
    assert SolverIds[1] in IdsFrom(0);
    assert SolverIds[2] in IdsFrom(0);
  }

  /** `assign_roles`: one report per solver key, no other key. */
  function AssignRoles(env: Env, at: nat, problemText: string): (r: Run<map<string, Json>>)
    ensures r.result.Success? ==>
              && r.result.value.Keys == {"solver_1", "solver_2", "solver_3"}
              && forall id | id in r.result.value :: RoleOf(env, problemText, r.result.value[id], id)
    ensures r.result.Success? ==> RoleAnswerAt(env, at, problemText, r.result.value["solver_1"], "solver_1")
    ensures r.result.Failure? ==> r.result.error == TransportExhausted(MaxRetries) || r.result.error == NotAnObject
    ensures Reliable(env) && ObjectAnswers(env, RoleRequest(problemText)) ==> r.result.Success?
  {
    AllSolverIds();
    AssignRolesFrom(env, at, problemText, 0)
  }

  /** A garbled first answer gives solver_1 the default report. */
  lemma GarbledFirstRole(env: Env, at: nat, problemText: string, text: string)
    requires env.reply(at, RoleRequest(problemText)) == Text(text) && env.loads(text).None?
    ensures var r := AssignRoles(env, at, problemText);
            r.result.Success? ==> r.result.value["solver_1"] == DefaultRole()
  {
    assert CallLlm(env, at, RoleRequest(problemText), MaxRetries) == Call(Delivered(text), 1);
  }

  /** A decoded value that is not an object, e.g. a bare number, cannot be
      stamped: the stage raises instead of falling back. */
  lemma NonObjectRoleRaises(env: Env, at: nat, problemText: string, text: string)
    requires env.reply(at, RoleRequest(problemText)) == Text(text) && env.loads(text) == Some(Num(1.0))
    ensures AssignRoles(env, at, problemText) == Run(Failure(NotAnObject), at + 1)
  {
    assert CallLlm(env, at, RoleRequest(problemText), MaxRetries) == Call(Delivered(text), 1);
  }
}

=== FILE: schemas.dfy ===
/** The four JSON Schema documents the stages validate against, and the part
    of JSON Schema (draft 2020-12) they use: section 6.1.1 "type", section
    6.5.3 "required", and the "properties"/"items" applicators. */
module Schemas {
  import opened Wrappers
  import opened Json

  datatype Prop = Prop(name: string, schema: Schema)

  datatype Schema =
    | StringType
    | IntegerType
    | NumberType
      /** "type": "array", with an "items" schema when one is given */
    | ArrayType(items: Option<Schema>)
      /** "type": "object" with "properties" and "required" */
    | ObjectType(properties: seq<Prop>, required: seq<string>)

  /** `j` is an instance of `s`. A property schema constrains a key only when
      the key is present; "required" is what demands presence. */
  predicate Validates(j: Json, s: Schema)
    decreases s
  {
    match s
    case StringType => j.Str?
    case IntegerType => j.Num? && IsInteger(j.n)
    case NumberType => j.Num?
    case ArrayType(items) =>
      && j.Arr?
      && (items.Some? ==> forall i | 0 <= i < |j.items| :: Validates(j.items[i], items.value))
    case ObjectType(props, req) =>
      && j.Obj?
      && (forall k | k in req :: k in j.fields)
      && (forall i | 0 <= i < |props| ::
            props[i].name in j.fields ==> Validates(j.fields[props[i].name], props[i].schema))
  }

  const StepSchema: Schema :=
    ObjectType(
      [Prop("step", IntegerType), Prop("reasoning", StringType), Prop("answer", StringType)],
      ["step", "reasoning", "answer"])

  const SolverSchema: Schema :=
    ObjectType(
      [ Prop(SolverIdKey, StringType),
        Prop("steps", ArrayType(Some(StepSchema))),
        Prop("final_answer", StringType),
        Prop("confidence", NumberType)],
      [SolverIdKey, "steps", "final_answer", "confidence"])

  const StringArray: Schema := ArrayType(Some(StringType))

  const EvaluationSchema: Schema :=
    ObjectType(
      [ Prop("strengths", StringArray),
        Prop("weaknesses", StringArray),
        Prop("errors", ArrayType(None)),
        Prop("suggested_changes", StringArray),
        Prop("scores", ObjectType([], []))],
      ["strengths", "weaknesses", "errors", "suggested_changes", "scores"])

  const ReviewSchema: Schema :=
    ObjectType(
      [ Prop("reviewer_id", StringType),
        Prop("solution_id", StringType),
        Prop("evaluation", EvaluationSchema)],
      ["reviewer_id", "solution_id", "evaluation"])

  /** A refined solution is checked against the very same document. */
  const RefinedSchema: Schema := SolverSchema

  const JudgeSchema: Schema :=
    ObjectType(
      [Prop("winner", StringType), Prop("confidence", NumberType), Prop("reasoning", StringType)],
      ["winner", "confidence", "reasoning"])

  /** A schema under which overwriting `solver_id` with a string cannot break
      validity: an object schema that types `solver_id`, if at all, as a string. */
  predicate StampSafe(s: Schema) {
    && s.ObjectType?
    && forall i | 0 <= i < |s.properties| ::
         s.properties[i].name == SolverIdKey ==> s.properties[i].schema == StringType
  }

  /** In a valid object, a required property is present and valid. */
  lemma RequiredProp(j: Json, s: Schema, i: nat)
    requires s.ObjectType? && Validates(j, s)
    requires i < |s.properties| && i < |s.required| && s.properties[i].name == s.required[i]
    ensures j.Obj? && s.properties[i].name in j.fields
    ensures Validates(j.fields[s.properties[i].name], s.properties[i].schema)
  {
    assert s.required[i] in s.required;
  }

  /** A solution is accepted only with all four keys present, and each step
      only with its three keys typed as integer, string, string. */
  lemma SolutionShape(j: Json)
    requires Validates(j, SolverSchema)
    ensures HasStringId(j) && HasString(j, "final_answer")
    ensures "steps" in j.fields && j.fields["steps"].Arr?
    ensures "confidence" in j.fields && j.fields["confidence"].Num?
    ensures forall i | 0 <= i < |j.fields["steps"].items| :: StepShaped(j.fields["steps"].items[i])
  {
    RequiredProp(j, SolverSchema, 0);
    RequiredProp(j, SolverSchema, 1);
    RequiredProp(j, SolverSchema, 2);
    RequiredProp(j, SolverSchema, 3);
    var steps := j.fields["steps"];
    forall i | 0 <= i < |steps.items|
      ensures StepShaped(steps.items[i])
    {
      assert Validates(steps.items[i], StepSchema);
      RequiredProp(steps.items[i], StepSchema, 0);
      RequiredProp(steps.items[i], StepSchema, 1);
      RequiredProp(steps.items[i], StepSchema, 2);
    }
  }

  /** An object with an integer "step" and string "reasoning" and "answer". */
  predicate StepShaped(st: Json) {
    && st.Obj? && "step" in st.fields && st.fields["step"].Num? && IsInteger(st.fields["step"].n)
    && HasString(st, "reasoning") && HasString(st, "answer")
  }

  /** A review is accepted only with both ids as strings and an evaluation
      holding all five keys; "errors" may hold anything and "scores" is any object. */
  lemma ReviewShape(j: Json)
    requires Validates(j, ReviewSchema)
    ensures HasString(j, "reviewer_id") && HasString(j, "solution_id")
    ensures "evaluation" in j.fields && EvaluationShaped(j.fields["evaluation"])
  {
    RequiredProp(j, ReviewSchema, 0);
    RequiredProp(j, ReviewSchema, 1);
    RequiredProp(j, ReviewSchema, 2);
    EvaluationShape(j.fields["evaluation"]);
  }

  lemma EvaluationShape(e: Json)
    requires Validates(e, EvaluationSchema)
    ensures EvaluationShaped(e)
  {
    RequiredProp(e, EvaluationSchema, 2);
    RequiredProp(e, EvaluationSchema, 4);
  }

  /** An object holding the five evaluation keys, with an array of errors
      and an object of scores. */
  predicate EvaluationShaped(e: Json) {
    && e.Obj? && "strengths" in e.fields && "weaknesses" in e.fields && "errors" in e.fields
    && "suggested_changes" in e.fields && "scores" in e.fields
    && e.fields["errors"].Arr? && e.fields["scores"].Obj?
  }

  /** A judgment is accepted only with a string winner, a number confidence
      (no range is imposed) and a string reasoning. */
  lemma JudgmentShape(j: Json)
    requires Validates(j, JudgeSchema)
    ensures HasString(j, "winner") && HasString(j, "reasoning")
    ensures "confidence" in j.fields && j.fields["confidence"].Num?
  {
    RequiredProp(j, JudgeSchema, 0);
    RequiredProp(j, JudgeSchema, 1);
    RequiredProp(j, JudgeSchema, 2);
  }
}

=== FILE: solver.dfy ===
/** The solver stage for one agent: ask for a structured solution, fall back
    to an empty one, and always stamp the agent's id. */
module Solver {
  import opened Wrappers
  import opened Json
  import opened Schemas
  import opened Records
  import opened Client

  /** The solution used when the backend's answer cannot be used. */
  function EmptySolution(solverId: string): (j: Json)
    ensures SolutionFromJson(j) == Some(Solution(solverId, [], "", 0.5))
    ensures Validates(j, SolverSchema)
  {
    SolutionRoundTrip(Solution(solverId, [], "", 0.5));
    SolutionToJson(Solution(solverId, [], "", 0.5))
  }

  function SolverRequest(problemText: string): Request {
    Request(SolverPrompt, Plain(problemText))
  }

  /** `run_solver`. The result always carries `solverId` and always conforms
      to the solver schema; it is the empty solution exactly when the answer
      was rejected, and otherwise the accepted answer with every key other
      than `solver_id` untouched. */
  function RunSolver(env: Env, at: nat, problemText: string, solverId: string): (r: Run<Json>)
    ensures var call := CallLlmJson(env, at, SolverRequest(problemText), solverId, Some(SolverSchema));
            && r.next == call.next
            && (r.result.Failure? <==> call.result.Failure?)
            && (r.result.Failure? ==> r.result.error == TransportExhausted(MaxRetries))
    ensures r.result.Failure? <==> FailsBetween(env, SolverRequest(problemText), at, at + MaxRetries)
    ensures r.result.Success? ==>
              && HasStringId(r.result.value) && IdOf(r.result.value) == solverId
              && Validates(r.result.value, SolverSchema)
    ensures r.result.Success? ==>
              var accepted := Accepted(env, at, SolverRequest(problemText), Some(SolverSchema));
              && (accepted.None? ==> r.result.value == EmptySolution(solverId))
              && (accepted.Some? ==>
                    && r.result.value.fields.Keys == accepted.value.fields.Keys
                    && forall k | k in accepted.value.fields && k != SolverIdKey ::
                         r.result.value.fields[k] == accepted.value.fields[k])
  {
    var req := SolverRequest(problemText);
    var call := CallLlmJson(env, at, req, solverId, Some(SolverSchema));
    match call.result
    case Failure(e) => Run(Failure(e), call.next)
    case Success(None) => Run(Success(Stamp(EmptySolution(solverId), solverId)), call.next)
    case Success(Some(data)) =>
      ParsedConforms(env, at, req, solverId, SolverSchema);
      StampKeepsValid(data, SolverSchema, solverId);
      SolutionShape(Accepted(env, at, req, Some(SolverSchema)).value);
      Run(Success(Stamp(data, solverId)), call.next)
  }

  /** A response that is not JSON yields exactly the empty solution, after a
      single backend invocation. */
  lemma NonJsonGivesEmptySolution(env: Env, at: nat, problemText: string, solverId: string, text: string)
    requires env.reply(at, SolverRequest(problemText)) == Text(text)
    requires env.loads(text).None?
    ensures RunSolver(env, at, problemText, solverId) == Run(Success(EmptySolution(solverId)), at + 1)
  {
    var s := RunSolver(env, at, problemText, solverId);
    assert Accepted(env, at, SolverRequest(problemText), Some(SolverSchema)).None?;
    var e := EmptySolution(solverId);
    StampSameId(e);
  }

  /** Validation comes before stamping: an answer without its own `solver_id`
      is rejected even though the stamp would have supplied one. */
  lemma MissingIdIsRejected(env: Env, at: nat, problemText: string, solverId: string, text: string)
    requires env.reply(at, SolverRequest(problemText)) == Text(text)
    requires env.loads(text).Some? && env.loads(text).value.Obj?
    requires SolverIdKey !in env.loads(text).value.fields
    ensures RunSolver(env, at, problemText, solverId) == Run(Success(EmptySolution(solverId)), at + 1)
  {
    assert SolverIdKey in SolverSchema.required;
    assert !Validates(env.loads(text).value, SolverSchema);
    StampSameId(EmptySolution(solverId));
  }
}

=== FILE: wrappers.dfy ===
/** Option and Result: the two tagged values the orchestration passes around.
    `None` is Python's `None` returned for a malformed response; `Failure`
    carries an exception that escapes the core. */
module Wrappers {

  datatype Option<+T> = None | Some(value: T) {

    /** Returns the value in Some, or `default` when None */
    function GetOr(default: T): T {
      match this
      case Some(v) => v
      case None => default
    }
  }

  datatype Result<+R, +E> = Success(value: R) | Failure(error: E)
}
